=== FILE: README.md ===
# NEXUS analysis backend and screens, modelled in Dafny

NEXUS is a malware-analysis dashboard. A serverless backend (a Hono app on
Supabase Edge Functions) keeps its state in a key-value store. It handles
these requests:

- upload a file description and "analyse" it, which draws a random threat
  score and random OWASP Top 10 findings;
- list, fetch and delete the caller's analyses;
- apply a mitigate, quarantine or block action to an analysis;
- list analyses by action status;
- compute dashboard statistics;
- answer a scripted Windows-style terminal.

A React client drives it through a handful of screens.

This project models:

- the backend's route handlers, as pure transitions over an abstract store (`Records`, `Server`);
- the randomised scoring and findings (`Scoring`);
- the terminal command responder (`Cli`);
- the route table and its first-match dispatch (`Router`);
- the client's small state machines and classifiers (`ResultsView`, `HistoryView`, `Terminal`, `App`, `SignUpCode`).

`Flows` relates the backend to the screens. `Text`, `Optional` and `Seqs`
hold the JavaScript string and array operations the code relies on.

How the model treats the environment:

- **The store** is a record of five maps: user records, per-user lists of analysis ids (newest first), analysis records, terminal command entries and action-log entries.
- **Authentication** is the auth provider's map from access token to user id, plus the session the server's one shared client keeps after the last `/auth/signin`. The token is the second space-separated field of the `Authorization` header. A missing or empty token makes `getUser` fall back to that stored session.
- **Randomness and time** are parameters. Every `Math.random()` draw is a real number in [0, 1), and each request reads the clock once (a `Clock` of milliseconds and an ISO string).
- **Replies** are `Ok(body)` or `Error(status, message)`. A `Step` pairs the reply with the store the request leaves behind.

The source's own comments list the action status as `pending` at upload
(index.tsx:215) and then one of mitigated, quarantined or blocked
(index.tsx:367), which reads as one move from pending to a final action.
The code overwrites it unconditionally on every accepted request, whatever
it held before and whatever the action string is. The model follows the code: `Server.ApplyActionTwice` proves that the last
action wins.

## Model

| member | source | states |
|---|---|---|
| Text.TrimEmptyIffBlank | ui/src/components/CLITerminal.tsx:39 | `cmd.trim()` is empty exactly when every character of the command is white space |
| Text.TrimIdempotent | ui/src/supabase/functions/server/index.tsx:438 | trimming an already trimmed string changes nothing |
| Text.TrimLowerCommute | ui/src/supabase/functions/server/index.tsx:438 | lower-casing and trimming commute, so the order in `toLowerCase().trim()` does not matter |
| Text.Contains | ui/src/components/HistoryScreen.tsx:94-97 | `includes` holds exactly when the needle occurs at some position of the haystack |
| Text.AfterSpace | ui/src/supabase/functions/server/index.tsx:157 | there is text after a space exactly when the string holds a space, and it is the suffix after the first space |
| Text.SecondFieldOfPair | ui/src/supabase/functions/server/index.tsx:157 | `split(' ')[1]` of `w + " " + t` is `t` when neither word contains a space |
| Text.NatToString | ui/src/supabase/functions/server/index.tsx:167 | the decimal rendering of a number is non-empty and all digits |
| Text.NatToStringInjective | ui/src/supabase/functions/server/index.tsx:193 | different numbers render to different strings |
| Seqs.Filter | ui/src/supabase/functions/server/index.tsx:329-331 | `filter` keeps exactly the elements that pass, with their multiplicities, as an order-preserving subsequence |
| Seqs.FilterAll | ui/src/components/HistoryScreen.tsx:94-97 | a filter every element passes returns the array unchanged |
| Scoring.RiskLabel | ui/src/supabase/functions/server/index.tsx:171 | the label is High Risk exactly above 70, Medium Risk exactly in (40, 70], Low Risk exactly at 40 or below |
| Scoring.ThreatScore | ui/src/supabase/functions/server/index.tsx:170 | the score lies in [0, 99] and is the whole part of a hundred times the draw |
| Scoring.PickIndex | ui/src/supabase/functions/server/index.tsx:190 | the category picked for a finding is a valid index into the ten-entry catalogue |
| Scoring.FindingCount | ui/src/supabase/functions/server/index.tsx:187-189 | the number of findings is the smaller of floor(score / 20) and the catalogue size |
| Scoring.FindingCountOfScore | ui/src/supabase/functions/server/index.tsx:187-189 | for a score in [0, 99] the number of findings is floor(score / 20), at most 4 |
| Scoring.MakeFinding | ui/src/supabase/functions/server/index.tsx:190-199 | each finding names a catalogue category (id, name and description together), the new analysis, the score's severity and the request time |
| Scoring.MakeFindings | ui/src/supabase/functions/server/index.tsx:189-201 | the upload builds floor(score / 20) findings (at most the catalogue size); the i-th carries the id `vuln_<ms>_<i>` and the category of the i-th draw, and every finding names an A01–A10 category, the new analysis, the score's severity and the request time |
| Scoring.FindingsWellFormed | ui/src/supabase/functions/server/index.tsx:173-201 | every finding of an upload has an A01–A10 id, the new analysis id and the Critical/High/Medium severity of the >70/>40 thresholds |
| Scoring.FindingIdsDistinct | ui/src/supabase/functions/server/index.tsx:193 | the findings of one upload carry pairwise distinct ids |
| Cli.FirstMatch | ui/src/supabase/functions/server/index.tsx:440-461 | first-match dispatch: a verb other than `Unknown` comes from an accepting rule with no accepting rule before it, and `Unknown` means no rule accepts |
| Cli.ClassifyIsFirstMatch | ui/src/supabase/functions/server/index.tsx:440-461 | the responder's if-chain is first-match dispatch over the ordered prefix table |
| Cli.Classify | ui/src/supabase/functions/server/index.tsx:440-461 | `help` and `clear` are recognised exactly when the normalised command is that whole word |
| Cli.Normalize | ui/src/supabase/functions/server/index.tsx:438 | the normalised command has no upper-case letter, no white space at either end, and is no longer than the command |
| Cli.Domain | ui/src/supabase/functions/server/index.tsx:451 | `nslookup` uses the second field of the command, or "example.com" when it is missing or empty |
| Cli.Respond | ui/src/supabase/functions/server/index.tsx:438-461 | the reply is the clear sentinel exactly when the normalised command is `clear`; each recognised verb of the normalised command prints its own text, and `nslookup` prints the answer for the domain taken from the normalised command; unrecognised input is answered quoting the command as typed; printed text is longer than the sentinel |
| Cli.Answer | ui/src/supabase/functions/server/index.tsx:440-461 | only the `clear` verb yields the clear sentinel; each of netstat, tasklist, ipconfig, whoami, systeminfo, dir and help prints its own fixed text; nslookup prints the answer for the command's domain; an unrecognised command echoes the command as typed in the not-recognised message; every printed answer is longer than the sentinel |
| Cli.OutputIsNeverSentinel | ui/src/components/CLITerminal.tsx:45 | no printed answer equals "CLEAR_TERMINAL" |
| Cli.NslookupWithoutArgument | ui/src/supabase/functions/server/index.tsx:450-452 | a bare `nslookup` looks up example.com |
| Cli.ClearIgnoresCaseAndBlanks | ui/src/supabase/functions/server/index.tsx:438 | `  CLEAR ` clears the terminal, because case and surrounding blanks are normalised away |
| Server.AuthenticateBearer | ui/src/supabase/functions/server/index.tsx:157-162 | a `Bearer <token>` header authenticates as the token's holder, as nobody for an unknown token, and as the stored session's user for an empty token |
| Server.Authenticate | ui/src/supabase/functions/server/index.tsx:157-162 | a presented (non-empty) token authenticates exactly when the provider knows it, as its holder; a missing or empty token authenticates as the shared client's stored session, if any |
| Server.SignIn | ui/src/supabase/functions/server/index.tsx:106-109 | signing in issues the user a token and leaves the shared client holding that user's session, other tokens unchanged |
| Server.NoHeaderIsStoredSession | ui/src/supabase/functions/server/index.tsx:157-158 | a request without an `Authorization` header acts as the stored session's user, and as nobody before any sign-in |
| Server.HeaderlessAfterSignIn | ui/src/supabase/functions/server/index.tsx:157-158 | after a sign-in, a request with no header or with `Bearer ` and no token acts as the user who signed in, while an unknown token still fails |
| Server.MetadataIsNoAnalysisId | ui/src/supabase/functions/server/index.tsx:167 | no id minted by an upload (`analysis_…`) equals the seeded `metadata` key, so an id list never names it |
| Server.Upload | ui/src/supabase/functions/server/index.tsx:155-246 | 401 with no change when unauthenticated; otherwise stores a pending record owned by the caller with a score in [0, 99], its risk label and at most 4 well-formed findings; prepends its id to the caller's list; bumps the user's counters when the user record exists; touches nothing else |
| Server.Lookup | ui/src/supabase/functions/server/index.tsx:254-267 | errors come in the order 401 (not authenticated), 404 (no record), 403 (not the owner, or the seeded `metadata` entry, which has no owner), and success means the caller owns the record |
| Server.GetAnalysis | ui/src/supabase/functions/server/index.tsx:249-275 | the record is returned exactly when the caller is authenticated and owns it; a 403, also given for the id `metadata`, says "Unauthorized access to analysis" |
| Server.DeleteAnalysis | ui/src/supabase/functions/server/index.tsx:305-339 | errors (401/404/403, in order; 403 for the id `metadata`) change nothing; success removes the record key, removes every occurrence of the id from the caller's list keeping the rest in order, and leaves all other records, lists and counters alone |
| Server.ApplyAction | ui/src/supabase/functions/server/index.tsx:344-389 | errors (401/404/403, in order; 403 for the id `metadata`) change nothing; success overwrites status, date and notes whatever they held, keeps every other field, logs one action entry owned by the caller, and leaves all other records alone |
| Server.ApplyActionTwice | ui/src/supabase/functions/server/index.tsx:366-370 | a second action always succeeds after a first and leaves the records as the second alone would: the transition is not one-shot |
| Server.Present | ui/src/supabase/functions/server/index.tsx:287-295 | the ids kept by the history loop are exactly the listed ids with a stored record, in list order, each as often as it is listed |
| Server.Resolve | ui/src/supabase/functions/server/index.tsx:287-295 | the history loop returns, position by position, the stored record of each kept id |
| Server.ResolveComplete | ui/src/supabase/functions/server/index.tsx:287-295 | every listed id with a stored record contributes its record |
| Server.History | ui/src/supabase/functions/server/index.tsx:278-302 | 401 exactly when unauthenticated; otherwise the caller's records in list order, skipping missing ids |
| Server.Matching | ui/src/supabase/functions/server/index.tsx:402-410 | the by-status loop keeps only stored records with the requested status, never more than the ids listed, and keeps every listed record with that status |
| Server.MatchingIsFilteredHistory | ui/src/supabase/functions/server/index.tsx:402-410 | the by-status loop equals filtering the history list by action status |
| Server.FilesByStatus | ui/src/supabase/functions/server/index.tsx:392-417 | returns exactly the history records whose action status equals the parameter: the history list filtered by that status |
| Server.TallyOf | ui/src/supabase/functions/server/index.tsx:515-528 | the scanned count is the number of listed ids with a record; threats, quarantined and blocked count the matching records and never exceed it |
| Server.SystemHealth | ui/src/supabase/functions/server/index.tsx:536 | health lies in [0, 100]; it is 100 exactly when there are no threats and 0 exactly from 20 threats on |
| Server.SystemHealthStep | ui/src/supabase/functions/server/index.tsx:536 | each further threat lowers health by five points until it reaches zero, which with health 100 at no threats fixes every value |
| Server.SystemHealthMonotone | ui/src/supabase/functions/server/index.tsx:536 | more threats never give higher health |
| Server.DashboardStats | ui/src/supabase/functions/server/index.tsx:502-543 | scanned, quarantined and blocked equal the lengths of the history and by-status lists; threats are the history records scoring above 70; threats and actions never exceed scanned; health is the health of that threat count: in [0, 100], 100 exactly with no threats, 0 exactly from twenty threats on |
| Server.LogCommand | ui/src/supabase/functions/server/index.tsx:463-471 | logging a command stores one entry under `cli_commands:<ms>` holding the caller, the command as typed, the output and the time, replaces only that key, and leaves the rest of the store alone |
| Server.CliExecute | ui/src/supabase/functions/server/index.tsx:422-478 | `clear` replies with the sentinel and stores nothing; any other command replies with the responder's text and stores exactly one entry, owned by the caller, holding the command as typed and that output |
| Server.CliHistory | ui/src/supabase/functions/server/index.tsx:481-498 | returns exactly the stored command entries owned by the caller |
| Server.ExecutedCommandIsListed | ui/src/supabase/functions/server/index.tsx:464-491 | a non-clear command shows up in the caller's terminal history; `clear` leaves that history as it was |
| Router.Dispatch | ui/src/supabase/functions/server/index.tsx:58-546 | a request goes to the first registered route that accepts it, and to none exactly when no route accepts it |
| Router.HistoryShadowed | ui/src/supabase/functions/server/index.tsx:249-278 | as registered, `GET /analysis/history` is dispatched to the single-record handler with id "history" |
| Router.HistoryUnreachable | ui/src/supabase/functions/server/index.tsx:249-278 | as registered, no request reaches the history handler |
| Router.HistoryIsNoAnalysisId | ui/src/supabase/functions/server/index.tsx:167 | "history" is never the id of an uploaded analysis |
| Router.ShadowedHistoryFails | ui/src/supabase/functions/server/index.tsx:254-263 | so the shadowed history request always ends in an error reply |
| Router.HistoryReachable | ui/src/supabase/functions/server/index.tsx:278 | with the history route registered first, `GET /analysis/history` reaches the history handler |
| Router.OrderedRoutesAgreeElsewhere | ui/src/supabase/functions/server/index.tsx:249-546 | the reordering routes every other request exactly as before |
| Router.AnalysisStillReachable | ui/src/supabase/functions/server/index.tsx:249 | with the reordering, `GET /analysis/<id>` still reaches the single-record handler for every other non-empty id |
| ResultsView.EffectiveLevel | ui/src/components/AnalysisResults.tsx:23 | the level is `threatLevel` when present and non-zero, else `threat_score` when present, else 0 |
| ResultsView.LevelOf | ui/src/components/AnalysisResults.tsx:22-28 | CRITICAL exactly from 80, HIGH exactly in [60, 80), MEDIUM exactly in [40, 60), LOW exactly below 40 |
| ResultsView.LevelMonotone | ui/src/components/AnalysisResults.tsx:22-28 | a higher level never gets a lower grade |
| ResultsView.LevelsDistinguishable | ui/src/components/AnalysisResults.tsx:24-27 | the four grades have pairwise different labels and colours |
| ResultsView.SeverityColor | ui/src/components/AnalysisResults.tsx:77-82 | Critical, High and Medium take the matching grade colours; every other string takes the default |
| ResultsView.SeverityColorsDistinct | ui/src/components/AnalysisResults.tsx:77-82 | the three named severities get three different colours, none of them the default |
| ResultsView.InitialStatus | ui/src/components/AnalysisResults.tsx:19 | the local status is the record's action status when present and non-empty, otherwise "pending" |
| ResultsView.BeginAction | ui/src/components/AnalysisResults.tsx:59-63 | an unconfirmed action changes nothing; a confirmed one marks a request in flight and keeps the status |
| ResultsView.FinishAction | ui/src/components/AnalysisResults.tsx:64-74 | the status becomes the action only after success, stays on failure, and the request ends either way |
| ResultsView.Render | ui/src/components/AnalysisResults.tsx:139-192 | the action buttons show exactly when the status is "pending", enabled exactly when no request is in flight; otherwise the badge shows "File " and the upper-cased status |
| ResultsView.StatusRow | ui/src/components/AnalysisResults.tsx:411 | the Status row reads "Analyzed" when pending, otherwise the upper-cased action |
| ResultsView.SucceededActionShowsBadge | ui/src/components/AnalysisResults.tsx:58-75 | a confirmed, successful action other than "pending" replaces the buttons with the badge naming it |
| ResultsView.FailedActionKeepsButtons | ui/src/components/AnalysisResults.tsx:69-74 | a failed action leaves a pending record's buttons in place and enabled again |
| ResultsView.OpenedRecordShowsStoredValues | ui/src/components/AnalysisResults.tsx:19-31 | a stored record opened from history shows its stored score and its stored action status |
| HistoryView.ThreatColor | ui/src/components/HistoryScreen.tsx:80-85 | the colour bands are 80, 60 and 40 |
| HistoryView.ThreatColorAgreesWithResults | ui/src/components/HistoryScreen.tsx:80-85 | the list colours a score exactly as the results screen colours its grade |
| HistoryView.ThreatColorsDistinct | ui/src/components/HistoryScreen.tsx:80-85 | scores in different bands get different colours |
| HistoryView.StatusLabel | ui/src/components/HistoryScreen.tsx:87-92 | mitigated, quarantined and blocked get capitalised labels; any other status shows the record's risk label |
| HistoryView.Search | ui/src/components/HistoryScreen.tsx:94-97 | keeps a record exactly when the lower-cased query occurs in its lower-cased file name or hash, as an order-preserving subsequence, each kept record as often as it occurs |
| HistoryView.EmptyQueryKeepsAll | ui/src/components/HistoryScreen.tsx:94-97 | an empty query keeps the whole list |
| HistoryView.SearchIgnoresQueryCase | ui/src/components/HistoryScreen.tsx:94-97 | upper-casing the query does not change the result |
| HistoryView.ReportOf | ui/src/components/HistoryScreen.tsx:41-50 | the exported report copies name, hash, score, status, upload date, findings, action status and action date from the record |
| HistoryView.ReportCopiesEightFields | ui/src/components/HistoryScreen.tsx:41-50 | two records give the same report exactly when they agree on name, hash, score, status, upload date, findings, action status and action date |
| HistoryView.ReportFileName | ui/src/components/HistoryScreen.tsx:56 | the download is named after the file, followed by "_report.json" |
| Terminal.Submit | ui/src/components/CLITerminal.tsx:38-43 | a blank command sends nothing and changes nothing; otherwise the trimmed command is sent and the terminal is marked executing |
| Terminal.CompleteAsWritten | ui/src/components/CLITerminal.tsx:45-69 | as written: the sentinel empties the history; any other result appends one entry to the history captured when the command was sent |
| Terminal.Complete | ui/src/components/CLITerminal.tsx:45-69 | the sentinel empties the history; any other result appends exactly one entry, holding the untrimmed command, after the current entries; the input is cleared and execution ends |
| Terminal.FailureAddsErrorEntry | ui/src/components/CLITerminal.tsx:57-65 | a failed request adds exactly one entry, reading "Error: " and the error |
| Terminal.CompletionsAgreeWhenSequential | ui/src/components/CLITerminal.tsx:48-65 | when nothing happened while the command was in flight, both completions give the same state |
| Terminal.KeyDown | ui/src/components/CLITerminal.tsx:72-76 | Enter runs the typed command only when none is executing; any other key, or Enter while executing, changes nothing |
| Terminal.Type | ui/src/components/CLITerminal.tsx:217-219 | the disabled input ignores typing while executing; otherwise only the input changes |
| Terminal.ClearButton | ui/src/components/CLITerminal.tsx:254 | the Clear Terminal button empties the history and nothing else |
| Terminal.ShowHelp | ui/src/components/CLITerminal.tsx:261-267 | Show Help sends `help` whatever the state, executing or not |
| Terminal.TerminalClearsIffClear | ui/src/components/CLITerminal.tsx:43-46 | with the backend's responder, the terminal empties exactly when the typed command normalises to `clear`; trimming before sending changes nothing |
| Terminal.LostEntry | ui/src/components/CLITerminal.tsx:48-55 | as written: send `dir`, press Show Help, and `dir`'s entry disappears when `help` answers |
| Terminal.ClearUndoneAsWritten | ui/src/components/CLITerminal.tsx:48-55 | as written: a Clear Terminal pressed while a command is in flight is undone when it answers |
| Terminal.BothEntriesKept | ui/src/components/CLITerminal.tsx:48-55 | corrected: both entries stay, in the order the replies arrived |
| Terminal.ClearKept | ui/src/components/CLITerminal.tsx:48-55 | corrected: a clear pressed during a request stays, and only the new entry shows |
| App.HandleLogin | ui/src/App.tsx:42-44 | login goes to the dashboard, demo mode or not, and changes nothing else |
| App.HandleSignUpStep1 | ui/src/App.tsx:46-49 | stores the sign-up data and moves to the second sign-up step |
| App.HandleSignUpComplete | ui/src/App.tsx:51-53 | completing sign-up goes to the dashboard |
| App.HandleFileUpload | ui/src/App.tsx:55-58 | stores the file and moves to the analysis screen |
| App.HandleAnalysisComplete | ui/src/App.tsx:60-63 | stores the analysis data and moves to the results screen |
| App.Navigate | ui/src/App.tsx:65-73 | always sets the screen; keeps a given payload; adopts its analysis data only when it carries some, else leaves the analysis data alone |
| App.Rendered | ui/src/App.tsx:89-110 | the current screen draws unless it is sign-up step 2 without sign-up data, analysis without a file, or results without analysis data |
| App.HandlersRender | ui/src/App.tsx:46-63 | the handlers that move to a guarded screen supply what it needs, so it draws |
| App.NavigateWithAnalysisShowsResults | ui/src/App.tsx:65-73 | navigating to results with analysis data draws the results for that data |
| App.GuardStatePersists | ui/src/App.tsx:42-73 | no sequence of handlers clears sign-up data, the current file or analysis data once set |
| App.ResultsStayReachable | ui/src/App.tsx:65-73 | once analysis data is set, navigating back to results always draws it |
| SignUpCode.CodeChange | ui/src/components/SignUpStep2.tsx:33-44 | a value longer than one character is ignored; otherwise only the given cell changes; six single-character cells stay so |
| SignUpCode.JoinLength | ui/src/components/SignUpStep2.tsx:53 | with single-character cells the joined code is as long as the number of filled cells |
| SignUpCode.CanVerify | ui/src/components/SignUpStep2.tsx:52-59 | verification goes ahead exactly when all six cells are filled |
| SignUpCode.Tick | ui/src/components/SignUpStep2.tsx:27 | the countdown drops by one while positive and stays at 0 |
| SignUpCode.TicksCountDown | ui/src/components/SignUpStep2.tsx:25-31 | after n seconds the countdown reads its start minus n, never below 0 |
| SignUpCode.Resend | ui/src/components/SignUpStep2.tsx:96-97 | resend restarts the countdown at 59 and keeps the code |
| SignUpCode.ResendReturnsAfterDelay | ui/src/components/SignUpStep2.tsx:217-229 | after a resend the button comes back exactly when 59 seconds have passed |
| Flows.ThresholdsRelate | ui/src/components/AnalysisResults.tsx:22-28 | a CRITICAL grade is always "High Risk", "High Risk" is always at least HIGH, and "Low Risk" is at most MEDIUM |
| Flows.FreshUploadListedByRisk | ui/src/components/HistoryScreen.tsx:87-92 | a fresh upload is listed under the risk label the upload replied with |
| Flows.ResolveIgnoresOtherKeys | ui/src/supabase/functions/server/index.tsx:287-295 | storing a record under an id the list does not mention changes nothing the list shows |
| Flows.UploadListedFirst | ui/src/supabase/functions/server/index.tsx:219-224 | after an upload under a new id, the history starts with the new record followed by the earlier list |
| Flows.UploadCountsOnce | ui/src/supabase/functions/server/index.tsx:515-520 | such an upload raises the dashboard's scanned count by exactly one |
| Flows.DeletedNotListed | ui/src/supabase/functions/server/index.tsx:326-331 | after a delete the caller's history no longer lists the id |
| Flows.ScreenAgreesWithStore | ui/src/components/AnalysisResults.tsx:66-67 | after the backend accepts an action, the screen's status and a reopened record's status equal the stored one |
| Flows.ReportAfterAction | ui/src/components/HistoryScreen.tsx:41-50 | a report taken after an action shows the action and its date, with the other six fields as before |

## Left out

- Sign-up and session routes and the health route, and the sign-in route's reply. They are calls into the auth provider or fixed status text. The sign-in route's effect on the shared client is modelled (Server.SignIn).
- Server.Authenticate: the fallback of `getUser` to the client's stored session is how supabase-js v2 treats a missing or empty JWT. That library is not part of this model, and the client's persistence settings are not visible at index.tsx:18-21. If the client keeps no session, `stored` stays empty and authentication reduces to the token map. Only the session route (index.tsx:135-137) rejects a missing token before calling the provider.
- `initializeDatabase` (index.tsx:25-50) is modelled only through its effect on the routes: the seeded `file_analyses:metadata` entry is the id `metadata`, which GET, DELETE and action answer with 403 because it has no owner. Its `created_at`, `count` and `indexes` fields are not modelled. A user's id list never names `metadata`, because upload ids begin with `analysis_` (Server.MetadataIsNoAnalysisId), so history, by-status and statistics never read it. The other tables' `metadata` entries carry no `user_id`, so the command history never includes them.
- The CORS and logger middleware and Hono's internals. Routing is modelled only as first-registered-match over method and path segments.
- The key-value store's implementation. It is modelled as maps. The order `getByPrefix` returns entries in is unknown, so the terminal history is a map, not a sequence.
- Concurrency between requests. Each handler is one atomic transition; interleaved read-modify-write (last write wins) is not modelled.
- The 500 replies. These come from malformed bodies, store failures and a missing `command` field. Request bodies are modelled as well-typed values.
- Server.Upload: `Date.now()` and `new Date()` are read several times per request. The model uses one clock reading for the id, every finding and the dates. Two writes in the same millisecond overwrite each other (`cmd_<ms>`, `action_<ms>`) exactly as the map update does, but that is not stated as a separate property.
- Scoring.ThreatScore: `Math.random()` is a double. It is modelled as an exact real in [0, 1), so rounding of the product is not modelled.
- Text.ToLower: `toLowerCase` and `toUpperCase` are modelled for ASCII letters only. String lengths count Unicode scalar values, not UTF-16 code units.
- SignUpCode.CodeChange: the `value.length > 1` test (SignUpStep2.tsx:34) counts Unicode scalar values, so a character outside the Basic Multilingual Plane, such as an emoji, is accepted into a cell, where the source counts two UTF-16 units and ignores it.
- The client's API wrapper and its global token. The screens receive results as parameters.
- React rendering details, animations, toasts, focus handling, clipboard and downloads as files. The report's content and file name are modelled; the blob and the click are not.
- `data.id || data.analysisId` on the results screen. The record id is a parameter of the action.
- The results screen's built-in sample findings, shown only when the data has no `vulnerabilities` field at all (an empty list is shown as empty). Every stored record carries the field, so they are display fixtures.

## Findings

| source | as written | input that shows it | evidently intended | confidence | as-written member | corrected member |
|---|---|---|---|---|---|---|
| ui/src/supabase/functions/server/index.tsx:249-278 | `GET /analysis/:id` is registered before `GET /analysis/history`, and Hono runs handlers in registration order, so the history request is answered by the single-record handler with id "history" | `GET /make-server-05e5e588/analysis/history`: 401, or 404 "Analysis not found", never the list | the history route registered before the parameterised route, so the history screen receives the caller's analyses | not executed; rests on Hono's registration-order routing | Router.HistoryShadowed | Router.HistoryReachable |
| ui/src/components/CLITerminal.tsx:48-65 | the completion appends to the `commandHistory` captured when the command was sent, not to the current history | type `dir` and press Enter, then press Show Help before `dir` answers; when `help` answers, `dir`'s entry is gone. A Clear Terminal pressed during a request is likewise undone | append to the history as it is when the reply arrives (a functional state update) | not executed | Terminal.LostEntry | Terminal.BothEntriesKept |

=== FILE: app.dfy ===
/**
 * The application shell: which screen is current, the state some screens
 * need before they can render, and the handlers that move between screens.
 */
module App {
  import opened Optional
  import ResultsView

  datatype Screen =
    | Login | SignUp1 | SignUp2 | Dashboard | Analysis | Results | History
    | Models | Support | Settings | Terminal | FilesMitigated | FilesQuarantined | FilesBlocked

  datatype SignUpData = SignUpData(fullName: string, email: string, organization: string, role: string, password: string)

  /** The file chosen for analysis; only its identity matters here. */
  datatype FileRef = FileRef(name: string, size: nat)

  /** The optional payload of a navigation. */
  datatype NavData = NavData(analysisData: Option<ResultsView.ResultsData>)

  datatype AppState = AppState(
    screen: Screen,
    currentFile: Option<FileRef>,
    analysisData: Option<ResultsView.ResultsData>,
    signUpData: Option<SignUpData>,
    navigationData: Option<NavData>)

  const Initial := AppState(Login, None, None, None, None)

  /** `handleLogin`: demo mode or not, the dashboard comes next. */
  function HandleLogin(s: AppState, demoMode: bool): (t: AppState)
    ensures t.screen == Dashboard && t.(screen := s.screen) == s
  {
    s.(screen := Dashboard)
  }

  /** `handleSignUpStep1`. */
  function HandleSignUpStep1(s: AppState, data: SignUpData): (t: AppState)
    ensures t.screen == SignUp2 && t.signUpData == Some(data)
    ensures t.(screen := s.screen, signUpData := s.signUpData) == s
  {
    s.(signUpData := Some(data), screen := SignUp2)
  }

  /** `handleSignUpComplete`. */
  function HandleSignUpComplete(s: AppState): (t: AppState)
    ensures t.screen == Dashboard && t.(screen := s.screen) == s
  {
    s.(screen := Dashboard)
  }

  /** `handleFileUpload`. */
  function HandleFileUpload(s: AppState, file: FileRef): (t: AppState)
    ensures t.screen == Analysis && t.currentFile == Some(file)
    ensures t.(screen := s.screen, currentFile := s.currentFile) == s
  {
    s.(currentFile := Some(file), screen := Analysis)
  }

  /** `handleAnalysisComplete`. */
  function HandleAnalysisComplete(s: AppState, data: ResultsView.ResultsData): (t: AppState)
    ensures t.screen == Results && t.analysisData == Some(data)
    ensures t.(screen := s.screen, analysisData := s.analysisData) == s
  {
    s.(analysisData := Some(data), screen := Results)
  }

  /** `handleNavigate`: always switch screens; keep the payload; adopt its analysis data only when it carries some. */
  function Navigate(s: AppState, screen: Screen, data: Option<NavData>): (t: AppState)
    ensures t.screen == screen
    ensures data.Some? ==> t.navigationData == data
    ensures data.None? ==> t.navigationData == s.navigationData
    ensures data.Some? && data.value.analysisData.Some? ==> t.analysisData == data.value.analysisData
    ensures data.None? || data.value.analysisData.None? ==> t.analysisData == s.analysisData
    ensures t.currentFile == s.currentFile && t.signUpData == s.signUpData
  {
    match data
    case None => s.(screen := screen)
    case Some(d) =>
      var t := s.(screen := screen, navigationData := data);
      if d.analysisData.Some? then t.(analysisData := d.analysisData) else t
  }

  /** The state a screen needs before it renders. */
  predicate Ready(s: AppState) {
    match s.screen
    case SignUp2 => s.signUpData.Some?
    case Analysis => s.currentFile.Some?
    case Results => s.analysisData.Some?
    case _ => true
  }

  /** The render guards: the current screen is drawn only when what it needs is present. */
  function Rendered(s: AppState): (r: Option<Screen>)
    ensures r.Some? ==> r.value == s.screen
    ensures r.None? <==>
      || (s.screen == SignUp2 && s.signUpData.None?)
      || (s.screen == Analysis && s.currentFile.None?)
      || (s.screen == Results && s.analysisData.None?)
  {
    if Ready(s) then Some(s.screen) else None
  }

  /** The handlers that move to a guarded screen also supply what it needs, so that screen is drawn. */
  lemma HandlersRender(s: AppState, d: SignUpData, f: FileRef, a: ResultsView.ResultsData)
    ensures Rendered(HandleSignUpStep1(s, d)) == Some(SignUp2)
    ensures Rendered(HandleFileUpload(s, f)) == Some(Analysis)
    ensures Rendered(HandleAnalysisComplete(s, a)) == Some(Results)
  {
  }

  /** Navigating with analysis data always shows the results screen for that data. */
  lemma NavigateWithAnalysisShowsResults(s: AppState, a: ResultsView.ResultsData)
    ensures var t := Navigate(s, Results, Some(NavData(Some(a))));
      Rendered(t) == Some(Results) && t.analysisData == Some(a)
  {
  }

  /** Without analysis data from anywhere, navigating to the results screen draws nothing. */
  lemma ResultsWithoutDataIsBlank()
    ensures Rendered(Navigate(Initial, Results, None)) == None
    ensures Rendered(Navigate(Initial, Results, Some(NavData(None)))) == None
  {
  }

  /** One step of any handler. */
  datatype Event =
    | LoggedIn(demoMode: bool)
    | SignedUpStep1(data: SignUpData)
    | SignUpCompleted
    | FileUploaded(file: FileRef)
    | AnalysisCompleted(result: ResultsView.ResultsData)
    | Navigated(screen: Screen, payload: Option<NavData>)

  function Step(s: AppState, e: Event): (r: AppState) {
    match e
    case LoggedIn(demo) => HandleLogin(s, demo)
    case SignedUpStep1(d) => HandleSignUpStep1(s, d)
    case SignUpCompleted => HandleSignUpComplete(s)
    case FileUploaded(f) => HandleFileUpload(s, f)
    case AnalysisCompleted(d) => HandleAnalysisComplete(s, d)
    case Navigated(screen, p) => Navigate(s, screen, p)
  }

  function Run(s: AppState, events: seq<Event>): (r: AppState)
    decreases |events|
  {
    if events == [] then s else Run(Step(s, events[0]), events[1..])
  }

  /** Nothing ever clears guard state: once set, sign-up data, the file and analysis data stay set. */
  lemma {:induction false} GuardStatePersists(s: AppState, events: seq<Event>)
    ensures s.signUpData.Some? ==> Run(s, events).signUpData.Some?
    ensures s.currentFile.Some? ==> Run(s, events).currentFile.Some?
    ensures s.analysisData.Some? ==> Run(s, events).analysisData.Some?
    decreases |events|
  {
    if events != [] {
      GuardStatePersists(Step(s, events[0]), events[1..]);
    }
  }

  /** So once the results screen has been reachable, returning to it always draws it. */
  lemma ResultsStayReachable(s: AppState, events: seq<Event>)
    requires s.analysisData.Some?
    ensures Rendered(Navigate(Run(s, events), Results, None)) == Some(Results)
  {
    GuardStatePersists(s, events);
  }
}

=== FILE: cli.dfy ===
/**
 * The scripted command responder behind `POST /cli/execute`: the command is
 * lower-cased and trimmed, then matched against a fixed list of prefixes in
 * order; `help` and `clear` match only exactly, and anything else is answered
 * with a "not recognized" message that quotes the command as typed.
 */
module Cli {
  import opened Optional
  import opened Text

  /** The reply that tells the terminal to wipe its history instead of printing. */
  const ClearSentinel: string := "CLEAR_TERMINAL"

  const NetstatText: string := "Active Connections\n\n  Proto  Local Address          Foreign Address        State\n  TCP    0.0.0.0:135            0.0.0.0:0              LISTENING\n  TCP    0.0.0.0:445            0.0.0.0:0              LISTENING\n  TCP    192.168.1.100:49152    20.190.151.7:443       ESTABLISHED\n  TCP    192.168.1.100:49153    142.250.185.14:443     ESTABLISHED\n  UDP    0.0.0.0:5353           *:*\n  UDP    192.168.1.100:137      *:*"

  const TasklistText: string := "Image Name                     PID Session Name        Mem Usage\n========================= ======== ================ ============\nSystem                           4 Services                 1,024 K\nsvchost.exe                    856 Services                12,456 K\nexplorer.exe                  4532 Console                 45,892 K\nchrome.exe                    7234 Console                234,567 K\nmalware_scanner.exe           9823 Console                 89,234 K"

  const IpconfigText: string := "Windows IP Configuration\n\nEthernet adapter Ethernet:\n\n   Connection-specific DNS Suffix  . : local\n   IPv4 Address. . . . . . . . . . . : 192.168.1.100\n   Subnet Mask . . . . . . . . . . . : 255.255.255.0\n   Default Gateway . . . . . . . . . : 192.168.1.1"

  const WhoamiText: string := "nexus\\security_analyst"

  const SysteminfoText: string := "Host Name:                 NEXUS-WORKSTATION\nOS Name:                   Microsoft Windows 11 Enterprise\nOS Version:                10.0.22631 N/A Build 22631\nSystem Type:               x64-based PC\nProcessor(s):              1 Processor(s) Installed.\n                           [01]: Intel64 Family 6 Model 165 Stepping 2 GenuineIntel ~2904 Mhz"

  const DirText: string := " Volume in drive C has no label.\n Directory of C:\\Users\\security_analyst\n\n06/10/2025  02:30 PM    <DIR>          .\n06/10/2025  02:30 PM    <DIR>          ..\n06/09/2025  11:45 AM             2,456 ransomware.exe\n06/08/2025  03:22 PM             1,834 trojan_loader.dll\n06/07/2025  09:15 AM               890 suspicious_script.ps1\n               3 File(s)          5,180 bytes"

  const HelpText: string := "Available Commands:\n  netstat [-an]     - Display active network connections\n  tasklist          - Display running processes\n  ipconfig [/all]   - Display network configuration\n  whoami            - Display current user\n  systeminfo        - Display system information\n  nslookup [domain] - Query DNS records\n  dir / ls          - List directory contents\n  clear             - Clear terminal\n  help              - Display this help message"

  const NslookupHead: string := "Server:  UnKnown\nAddress:  192.168.1.1\n\nNon-authoritative answer:\nName:    "
  const NslookupTail: string := "\nAddresses:  93.184.216.34\n          2606:2800:220:1:248:1893:25c8:1946"

  /** The `nslookup` answer for `domain`. */
  function NslookupText(domain: string): (r: string)
    ensures |r| > |ClearSentinel|
  {
    NslookupHead + domain + NslookupTail
  }

  const NotRecognizedTail: string := "' is not recognized as an internal or external command,\noperable program or batch file.\n\nType 'help' for available commands."

  /** The answer to an unrecognised command, quoting it as the caller sent it. */
  function NotRecognized(command: string): (r: string)
    ensures |r| > |ClearSentinel|
  {
    "'" + command + NotRecognizedTail
  }

  /** What a normalised command is recognised as. */
  datatype Verb = Netstat | Tasklist | Ipconfig | Whoami | Systeminfo | Nslookup | Dir | Help | Clear | Unknown

  /** `command.toLowerCase().trim()`: no upper-case letter and no white space at either end. */
  function Normalize(command: string): (r: string)
    ensures |r| <= |command|
    ensures r == [] || (!IsSpace(r[0]) && !IsSpace(r[|r| - 1]))
    ensures forall c :: c in r ==> !('A' <= c <= 'Z')
  {
    TrimBorders(ToLower(command));
    TrimChars(ToLower(command));
    ToLowerNoUpper(command);
    Trim(ToLower(command))
  }

  /**
   * The responder's if-chain: prefix tests in order, then the two exact words,
   * which are recognised only as the whole (normalised) command.
   */
  function Classify(cmd: string): (r: Verb)
    ensures r == Help <==> cmd == "help"
    ensures r == Clear <==> cmd == "clear"
  {
    assert cmd == "help" || cmd == "clear" ==>
      && !StartsWith(cmd, "dir") && !StartsWith(cmd, "ls")
      && !StartsWith(cmd, "netstat") && !StartsWith(cmd, "tasklist") && !StartsWith(cmd, "ipconfig")
      && !StartsWith(cmd, "whoami") && !StartsWith(cmd, "systeminfo") && !StartsWith(cmd, "nslookup")
    by {
      if cmd == "help" || cmd == "clear" {
        assert cmd[0] in "hc";
        assert "dir"[0] != cmd[0] && "ls"[0] != cmd[0];
      }
    }
    if StartsWith(cmd, "netstat") then Netstat
    else if StartsWith(cmd, "tasklist") then Tasklist
    else if StartsWith(cmd, "ipconfig") then Ipconfig
    else if StartsWith(cmd, "whoami") then Whoami
    else if StartsWith(cmd, "systeminfo") then Systeminfo
    else if StartsWith(cmd, "nslookup") then Nslookup
    else if StartsWith(cmd, "dir") || StartsWith(cmd, "ls") then Dir
    else if cmd == "help" then Help
    else if cmd == "clear" then Clear
    else Unknown
  }

  /** One dispatch rule: a prefix test or an exact-word test. */
  datatype Rule = Prefix(word: string, verb: Verb) | Exact(word: string, verb: Verb) {
    predicate Accepts(cmd: string) {
      match this
      case Prefix(w, _) => StartsWith(cmd, w)
      case Exact(w, _) => cmd == w
    }
  }

  /** The dispatch table in the order the responder tries it. */
  const Rules: seq<Rule> := [
    Prefix("netstat", Netstat), Prefix("tasklist", Tasklist), Prefix("ipconfig", Ipconfig),
    Prefix("whoami", Whoami), Prefix("systeminfo", Systeminfo), Prefix("nslookup", Nslookup),
    Prefix("dir", Dir), Prefix("ls", Dir), Exact("help", Help), Exact("clear", Clear)]

  /** Rule `i` accepts `cmd` with a verb, and no earlier rule does. */
  predicate FirstAccepting(rules: seq<Rule>, i: int, cmd: string) {
    && 0 <= i < |rules|
    && rules[i].Accepts(cmd) && rules[i].verb != Unknown
    && forall j :: 0 <= j < i ==> !(rules[j].Accepts(cmd) && rules[j].verb != Unknown)
  }

  /** The verb of the first rule that accepts `cmd`, `Unknown` when none does. */
  function FirstMatch(rules: seq<Rule>, cmd: string): (v: Verb)
    ensures v == Unknown || exists i :: 0 <= i < |rules| && rules[i].Accepts(cmd) && rules[i].verb == v
    ensures v == Unknown ==> forall i :: 0 <= i < |rules| && rules[i].verb != Unknown ==> !rules[i].Accepts(cmd)
    ensures v != Unknown ==> exists i :: FirstAccepting(rules, i, cmd) && rules[i].verb == v
  {
    if rules == [] then Unknown
    else if rules[0].Accepts(cmd) && rules[0].verb != Unknown then rules[0].verb
    else
      var v := FirstMatch(rules[1..], cmd);
      assert v != Unknown ==> exists i :: FirstAccepting(rules, i, cmd) && rules[i].verb == v by {
        if v != Unknown {
          var i :| FirstAccepting(rules[1..], i, cmd) && rules[1..][i].verb == v;
          assert forall j :: 1 <= j < i + 1 ==> rules[j] == rules[1..][j - 1];
          assert FirstAccepting(rules, i + 1, cmd);
        }
      }
      v
  }

  lemma FirstMatchStep(rules: seq<Rule>, k: nat, cmd: string)
    requires k < |rules|
    ensures FirstMatch(rules[k..], cmd)
      == if rules[k].Accepts(cmd) && rules[k].verb != Unknown then rules[k].verb else FirstMatch(rules[k + 1..], cmd)
  {
    assert rules[k..][1..] == rules[k + 1..];
  }

  /** The last four rules: the listing commands and the two exact words. */
  lemma LastRules(cmd: string)
    ensures FirstMatch(Rules[6..], cmd)
      == if StartsWith(cmd, "dir") || StartsWith(cmd, "ls") then Dir
         else if cmd == "help" then Help
         else if cmd == "clear" then Clear
         else Unknown
  {
    assert Rules[10..] == [];
    FirstMatchStep(Rules, 9, cmd);
    FirstMatchStep(Rules, 8, cmd);
    FirstMatchStep(Rules, 7, cmd);
    FirstMatchStep(Rules, 6, cmd);
  }

  /** The middle three rules. */
  lemma MiddleRules(cmd: string)
    ensures FirstMatch(Rules[3..], cmd)
      == if StartsWith(cmd, "whoami") then Whoami
         else if StartsWith(cmd, "systeminfo") then Systeminfo
         else if StartsWith(cmd, "nslookup") then Nslookup
         else FirstMatch(Rules[6..], cmd)
  {
    assert Rules[3] == Prefix("whoami", Whoami) && Rules[4] == Prefix("systeminfo", Systeminfo);
    assert Rules[5] == Prefix("nslookup", Nslookup);
    FirstMatchStep(Rules, 5, cmd);
    FirstMatchStep(Rules, 4, cmd);
    FirstMatchStep(Rules, 3, cmd);
  }

  /** The if-chain is first-match dispatch over the rule table. */
  lemma ClassifyIsFirstMatch(cmd: string)
    ensures Classify(cmd) == FirstMatch(Rules, cmd)
  {
    LastRules(cmd);
    MiddleRules(cmd);
    FirstMatchStep(Rules, 2, cmd);
    FirstMatchStep(Rules, 1, cmd);
    FirstMatchStep(Rules, 0, cmd);
    assert Rules[0..] == Rules;
  }

  /** `cmd.split(' ')[1] || 'example.com'`: a missing or empty second field falls back to the default domain. */
  function Domain(cmd: string): (d: string)
    ensures d != []
    ensures SecondField(cmd).Some? && SecondField(cmd).value != [] ==> d == SecondField(cmd).value
  {
    match SecondField(cmd)
    case Some(w) => if w == [] then "example.com" else w
    case None => "example.com"
  }

  /** The responder's answer: the clear sentinel, or text to print and store. */
  datatype Response = ClearTerminal | Output(text: string)

  function Respond(command: string): (r: Response)
    ensures r.ClearTerminal? <==> Normalize(command) == "clear"
    ensures Classify(Normalize(command)) == Unknown ==> r == Output(NotRecognized(command))
    ensures Classify(Normalize(command)) == Nslookup ==> r == Output(NslookupText(Domain(Normalize(command))))
    ensures Classify(Normalize(command)) == Netstat ==> r == Output(NetstatText)
    ensures Classify(Normalize(command)) == Tasklist ==> r == Output(TasklistText)
    ensures Classify(Normalize(command)) == Ipconfig ==> r == Output(IpconfigText)
    ensures Classify(Normalize(command)) == Whoami ==> r == Output(WhoamiText)
    ensures Classify(Normalize(command)) == Systeminfo ==> r == Output(SysteminfoText)
    ensures Classify(Normalize(command)) == Dir ==> r == Output(DirText)
    ensures Classify(Normalize(command)) == Help ==> r == Output(HelpText)
    ensures r.Output? ==> |r.text| > |ClearSentinel|
  {
    var cmd := Normalize(command);
    Answer(Classify(cmd), cmd, command)
  }

  /** The text for each recognised verb, branch by branch of the responder. */
  function Answer(v: Verb, cmd: string, command: string): (r: Response)
    ensures r.ClearTerminal? <==> v == Clear
    ensures v == Unknown ==> r == Output(NotRecognized(command))
    ensures v == Nslookup ==> r == Output(NslookupText(Domain(cmd)))
    ensures v == Netstat ==> r == Output(NetstatText)
    ensures v == Tasklist ==> r == Output(TasklistText)
    ensures v == Ipconfig ==> r == Output(IpconfigText)
    ensures v == Whoami ==> r == Output(WhoamiText)
    ensures v == Systeminfo ==> r == Output(SysteminfoText)
    ensures v == Dir ==> r == Output(DirText)
    ensures v == Help ==> r == Output(HelpText)
    ensures r.Output? ==> |r.text| > |ClearSentinel|
  {
    match v
    case Netstat => Output(NetstatText)
    case Tasklist => Output(TasklistText)
    case Ipconfig => Output(IpconfigText)
    case Whoami => Output(WhoamiText)
    case Systeminfo => Output(SysteminfoText)
    case Nslookup => Output(NslookupText(Domain(cmd)))
    case Dir => Output(DirText)
    case Help => Output(HelpText)
    case Clear => ClearTerminal
    case Unknown => Output(NotRecognized(command))
  }

  /** No printed answer can be mistaken for the clear sentinel. */
  lemma OutputIsNeverSentinel(command: string)
    ensures Respond(command).Output? ==> Respond(command).text != ClearSentinel
  {
  }

  /** A command typed in lower case without surrounding blanks is already normalised. */
  lemma NormalizeLowerWord(w: string)
    requires w != [] && !IsSpace(w[0]) && !IsSpace(w[|w| - 1])
    requires forall i :: 0 <= i < |w| ==> !('A' <= w[i] <= 'Z')
    ensures Normalize(w) == w
  {
    assert ToLower(w) == w;
  }

  lemma NormalizeNslookup()
    ensures Normalize("nslookup") == "nslookup"
  {
    var w := "nslookup";
    assert forall i :: 0 <= i < |w| ==> 'a' <= w[i] <= 'z';
    NormalizeLowerWord(w);
  }

  lemma ClassifyNslookup()
    ensures Classify("nslookup") == Nslookup
  {
    var w := "nslookup";
    assert !StartsWith(w, "netstat") by { assert w[1] != "netstat"[1]; }
    assert !StartsWith(w, "tasklist") && !StartsWith(w, "ipconfig") && !StartsWith(w, "whoami") by {
      assert w[0] != "tasklist"[0] && w[0] != "ipconfig"[0] && w[0] != "whoami"[0];
    }
  }

  lemma DomainOfBareNslookup()
    ensures Domain("nslookup") == "example.com"
  {
    var w := "nslookup";
    assert forall i :: 0 <= i < |w| ==> 'a' <= w[i] <= 'z';
    assert ' ' !in w;
    assert SecondField(w) == None;
  }

  /** A bare `nslookup` answers for the default domain. */
  lemma NslookupWithoutArgument()
    ensures Respond("nslookup") == Output(NslookupText("example.com"))
  {
    NormalizeNslookup();
    ClassifyNslookup();
    DomainOfBareNslookup();
  }

  lemma LowerShoutedClear()
    ensures ToLower("  CLEAR ") == "  clear "
  {
  }

  lemma TrimStartSpace(c: char, x: string)
    requires IsSpace(c)
    ensures TrimStart([c] + x) == TrimStart(x)
  {
    assert ([c] + x)[0] == c && ([c] + x)[1..] == x;
  }

  lemma TrimStartPaddedClear()
    ensures TrimStart("  clear ") == "clear "
  {
    assert "  clear " == [' '] + ([' '] + "clear ");
    TrimStartSpace(' ', [' '] + "clear ");
    TrimStartSpace(' ', "clear ");
    assert !IsSpace("clear "[0]);
  }

  lemma TrimEndPaddedClear()
    ensures TrimEnd("clear ") == "clear"
  {
    assert "clear "[..5] == "clear";
    assert TrimEnd("clear ") == TrimEnd("clear");
    assert !IsSpace("clear"[4]);
  }

  lemma TrimPaddedClear()
    ensures Trim("  clear ") == "clear"
  {
    TrimStartPaddedClear();
    TrimEndPaddedClear();
  }

  /** Upper case and surrounding blanks do not matter: `  CLEAR ` clears the terminal. */
  lemma ClearIgnoresCaseAndBlanks()
    ensures Respond("  CLEAR ") == ClearTerminal
  {
    LowerShoutedClear();
    TrimPaddedClear();
  }
}

=== FILE: flows.dfy ===
/**
 * Properties that span the backend and the screens: what the screens show
 * for records the backend stores, and how the backend's risk thresholds
 * relate to the screens' threat-level thresholds.
 */
module Flows {
  import opened Optional
  import opened Seqs
  import opened Records
  import opened Scoring
  import Server
  import ResultsView
  import HistoryView

  /** The backend labels risk above 70 and 40; the screens grade threat at 80, 60 and 40. Only the top band is shared. */
  lemma ThresholdsRelate(score: int)
    ensures ResultsView.LevelOf(score) == ResultsView.Critical ==> RiskLabel(score) == "High Risk"
    ensures RiskLabel(score) == "High Risk" ==> ResultsView.Rank(ResultsView.LevelOf(score)) >= 2
    ensures RiskLabel(score) == "Low Risk" ==> ResultsView.Rank(ResultsView.LevelOf(score)) <= 1
  {
  }

  /** A score of 65 is a "Medium Risk" record that the screens grade HIGH; a score of 40 is "Low Risk" graded MEDIUM. */
  lemma ThresholdsDisagree()
    ensures RiskLabel(65) == "Medium Risk" && ResultsView.Label(ResultsView.LevelOf(65)) == "HIGH"
    ensures RiskLabel(40) == "Low Risk" && ResultsView.Label(ResultsView.LevelOf(40)) == "MEDIUM"
  {
  }

  /** A fresh upload is listed under its risk label, since no action has been applied to it. */
  lemma FreshUploadListedByRisk(s: Store, sessions: Server.Sessions, header: Option<string>,
                                req: Server.UploadRequest, d: Server.Draws, clock: Clock)
    requires Server.ValidDraws(d) && Server.Authenticate(sessions, header).Some?
    ensures var r := Server.Upload(s, sessions, header, req, d, clock);
      var a := r.store.analyses[r.reply.body.analysisId];
      HistoryView.StatusLabel(a) == RiskLabel(a.threatScore) == r.reply.body.status
  {
  }

  /** Looking up the first listed id gives the first listed record. */
  lemma {:induction false} ResolveHead(id: AnalysisId, ids: seq<AnalysisId>, m: map<AnalysisId, Analysis>)
    requires id in m
    ensures Server.Resolve([id] + ids, m) == [m[id]] + Server.Resolve(ids, m)
  {
    assert ([id] + ids)[0] == id;
    assert ([id] + ids)[1..] == ids;
  }

  /** Storing under a key the list does not mention changes nothing the list resolves to. */
  lemma {:induction false} ResolveIgnoresOtherKeys(ids: seq<AnalysisId>, m: map<AnalysisId, Analysis>, k: AnalysisId, v: Analysis)
    requires k !in ids
    ensures Server.Resolve(ids, m[k := v]) == Server.Resolve(ids, m)
  {
    if ids != [] {
      ResolveIgnoresOtherKeys(ids[1..], m, k, v);
    }
  }

  /** After an upload the caller's history starts with the new record, followed by what it listed before. */
  lemma UploadListedFirst(s: Store, sessions: Server.Sessions, header: Option<string>,
                          req: Server.UploadRequest, d: Server.Draws, clock: Clock)
    requires Server.ValidDraws(d) && Server.Authenticate(sessions, header).Some?
    requires Server.NewAnalysisId(clock, d.idSuffix) !in IndexOf(s, Server.Authenticate(sessions, header).value)
    ensures var r := Server.Upload(s, sessions, header, req, d, clock);
      var id := r.reply.body.analysisId;
      Server.History(r.store, sessions, header).body
        == [r.store.analyses[id]] + Server.History(s, sessions, header).body
  {
    var uid := Server.Authenticate(sessions, header).value;
    var r := Server.Upload(s, sessions, header, req, d, clock);
    var id := r.reply.body.analysisId;
    var t := r.store;
    ResolveHead(id, IndexOf(s, uid), t.analyses);
    assert t.analyses == s.analyses[id := t.analyses[id]];
    ResolveIgnoresOtherKeys(IndexOf(s, uid), s.analyses, id, t.analyses[id]);
  }

  /** So an upload adds exactly one to the dashboard's scanned count. */
  lemma UploadCountsOnce(s: Store, sessions: Server.Sessions, header: Option<string>,
                         req: Server.UploadRequest, d: Server.Draws, clock: Clock)
    requires Server.ValidDraws(d) && Server.Authenticate(sessions, header).Some?
    requires Server.NewAnalysisId(clock, d.idSuffix) !in IndexOf(s, Server.Authenticate(sessions, header).value)
    ensures var t := Server.Upload(s, sessions, header, req, d, clock).store;
      Server.DashboardStats(t, sessions, header).body.totalScanned
        == Server.DashboardStats(s, sessions, header).body.totalScanned + 1
  {
    UploadListedFirst(s, sessions, header, req, d, clock);
  }

  /** After a delete, the caller's history no longer lists the deleted id. */
  lemma DeletedNotListed(s: Store, sessions: Server.Sessions, header: Option<string>, id: AnalysisId)
    requires Server.DeleteAnalysis(s, sessions, header, id).reply.Ok?
    ensures var t := Server.DeleteAnalysis(s, sessions, header, id).store;
      id !in Server.Present(IndexOf(t, Server.Authenticate(sessions, header).value), t.analyses)
  {
  }

  /** After the backend accepts an action, the results screen and a reopened record agree with what is stored. */
  lemma ScreenAgreesWithStore(s: Store, sessions: Server.Sessions, header: Option<string>, id: AnalysisId,
                              action: string, clock: Clock, p: ResultsView.Panel)
    requires action != []
    requires Server.ApplyAction(s, sessions, header, id, action, Some(ResultsView.ActionNote(action)), clock).reply.Ok?
    ensures var t := Server.ApplyAction(s, sessions, header, id, action, Some(ResultsView.ActionNote(action)), clock).store;
      var q := ResultsView.FinishAction(ResultsView.BeginAction(p, true), action, ResultsView.Succeeded);
      && q.status == t.analyses[id].actionStatus
      && ResultsView.Open(ResultsView.FromRecord(t.analyses[id]).actionStatus).status == q.status
  {
  }

  /** A report downloaded after an action shows the action and its date, and the file's other fields as uploaded. */
  lemma ReportAfterAction(s: Store, sessions: Server.Sessions, header: Option<string>, id: AnalysisId,
                          action: string, notes: Option<string>, clock: Clock)
    requires Server.ApplyAction(s, sessions, header, id, action, notes, clock).reply.Ok?
    ensures var t := Server.ApplyAction(s, sessions, header, id, action, notes, clock).store;
      HistoryView.ReportOf(t.analyses[id])
        == HistoryView.ReportOf(s.analyses[id]).(actionStatus := action, actionDate := Some(clock.iso))
  {
  }
}

=== FILE: history_view.dfy ===
/**
 * The history screen: the colour and label each listed analysis gets, the
 * search box that filters the list, and the report a download produces.
 */
module HistoryView {
  import opened Optional
  import opened Text
  import opened Seqs
  import opened Records
  import ResultsView

  /** `getThreatColor`: thresholds 80, 60 and 40. */
  function ThreatColor(level: int): (c: string)
    ensures level >= 80 ==> c == "#FF1E56"
    ensures 60 <= level < 80 ==> c == "#FFA500"
    ensures 40 <= level < 60 ==> c == "#FFD700"
    ensures level < 40 ==> c == "#00FF88"
  {
    if level >= 80 then "#FF1E56"
    else if level >= 60 then "#FFA500"
    else if level >= 40 then "#FFD700"
    else "#00FF88"
  }

  /** The list colours a score exactly as the results screen colours its threat level. */
  lemma ThreatColorAgreesWithResults(level: int)
    ensures ThreatColor(level) == ResultsView.Color(ResultsView.LevelOf(level))
  {
  }

  /** Scores in different bands get different colours. */
  lemma ThreatColorsDistinct(a: int, b: int)
    requires ResultsView.LevelOf(a) != ResultsView.LevelOf(b)
    ensures ThreatColor(a) != ThreatColor(b)
  {
    ThreatColorAgreesWithResults(a);
    ThreatColorAgreesWithResults(b);
    ResultsView.LevelsDistinguishable(ResultsView.LevelOf(a), ResultsView.LevelOf(b));
  }

  /** `getStatusLabel`: the applied action when there is one, otherwise the risk label. */
  function StatusLabel(a: Analysis): (r: string)
    ensures a.actionStatus == "mitigated" ==> r == "Mitigated"
    ensures a.actionStatus == "quarantined" ==> r == "Quarantined"
    ensures a.actionStatus == "blocked" ==> r == "Blocked"
    ensures a.actionStatus !in {"mitigated", "quarantined", "blocked"} ==> r == a.status
  {
    if a.actionStatus == "mitigated" then "Mitigated"
    else if a.actionStatus == "quarantined" then "Quarantined"
    else if a.actionStatus == "blocked" then "Blocked"
    else a.status
  }

  /** The search test: the lower-cased query occurs in the lower-cased file name or hash. */
  predicate SearchMatches(a: Analysis, query: string) {
    Contains(ToLower(a.fileName), ToLower(query)) || Contains(ToLower(a.fileHash), ToLower(query))
  }

  /** `filteredData`. */
  function Search(items: seq<Analysis>, query: string): (r: seq<Analysis>)
    ensures forall a :: a in r <==> a in items && SearchMatches(a, query)
    ensures forall a :: multiset(r)[a] == if SearchMatches(a, query) then multiset(items)[a] else 0
    ensures IsSubsequence(r, items)
  {
    Filter(items, (a: Analysis) => SearchMatches(a, query))
  }

  /** Every name contains the empty string, so an empty search box shows the whole list. */
  lemma EmptyQueryKeepsAll(items: seq<Analysis>)
    ensures Search(items, "") == items
  {
    forall a | a in items ensures SearchMatches(a, "") {
      assert OccursAt(ToLower(a.fileName), ToLower(""), 0);
    }
    FilterAll(items, (a: Analysis) => SearchMatches(a, ""));
  }

  /** The search ignores ASCII case in the query. */
  lemma SearchIgnoresQueryCase(items: seq<Analysis>, query: string)
    ensures Search(items, ToUpper(query)) == Search(items, query)
  {
    assert ToLower(ToUpper(query)) == ToLower(query);
    assert forall a :: SearchMatches(a, ToUpper(query)) == SearchMatches(a, query);
    FilterSame(items, (a: Analysis) => SearchMatches(a, ToUpper(query)), (a: Analysis) => SearchMatches(a, query));
  }

  /** Filters with the same verdict on every element give the same result. */
  lemma {:induction false} FilterSame(xs: seq<Analysis>, p: Analysis -> bool, q: Analysis -> bool)
    requires forall a :: p(a) == q(a)
    ensures Filter(xs, p) == Filter(xs, q)
  {
    if xs != [] {
      FilterSame(xs[1..], p, q);
    }
  }

  /** The downloaded JSON report. */
  datatype Report = Report(
    fileName: string,
    fileHash: string,
    threatScore: int,
    status: string,
    uploadDate: string,
    vulnerabilities: seq<Finding>,
    actionStatus: string,
    actionDate: Option<string>)

  /** `handleDownload`'s projection of a record: each report key holds the record field of the same meaning. */
  function ReportOf(a: Analysis): (r: Report)
    ensures r.fileName == a.fileName && r.fileHash == a.fileHash
    ensures r.threatScore == a.threatScore && r.status == a.status && r.uploadDate == a.uploadDate
    ensures r.vulnerabilities == a.vulnerabilities
    ensures r.actionStatus == a.actionStatus && r.actionDate == a.actionDate
  {
    Report(a.fileName, a.fileHash, a.threatScore, a.status, a.uploadDate, a.vulnerabilities, a.actionStatus, a.actionDate)
  }

  /** The report keeps the eight fields it copies and drops everything else. */
  lemma ReportCopiesEightFields(a: Analysis, b: Analysis)
    ensures ReportOf(a) == ReportOf(b) <==>
      a.(id := "", userId := "", fileSize := 0, fileType := "", analysisCompleted := false, actionNotes := None)
      == b.(id := "", userId := "", fileSize := 0, fileType := "", analysisCompleted := false, actionNotes := None)
  {
  }

  /** `<file name>_report.json`. */
  function ReportFileName(a: Analysis): (r: string)
    ensures a.fileName <= r
    ensures r[|a.fileName|..] == "_report.json"
  {
    a.fileName + "_report.json"
  }
}

=== FILE: records.dfy ===
/**
 * The entities the backend keeps in its key-value store, and the store
 * itself seen as the handful of key families the route handlers use:
 *   users:<id>            a user record with its running counters
 *   users:<id>:analyses   the user's analysis ids, newest first
 *   file_analyses:<id>    an analysis record (and the seeded `metadata` entry)
 *   cli_commands:<id>     one executed terminal command
 *   analysis_actions:<id> one applied action
 */
module Records {
  import opened Optional

  type UserId = string
  type AnalysisId = string

  datatype User = User(
    id: UserId,
    email: string,
    fullName: string,
    organization: string,
    role: string,
    createdAt: string,
    totalAnalyses: nat,
    totalThreatsDetected: nat)

  /** One synthesized OWASP finding attached to an analysis. */
  datatype Finding = Finding(
    id: string,
    analysisId: AnalysisId,
    owaspId: string,
    owaspName: string,
    severity: string,
    description: string,
    detectedAt: string)

  /** An analysis record; `actionDate` and `actionNotes` are absent until an action is applied. */
  datatype Analysis = Analysis(
    id: AnalysisId,
    userId: UserId,
    fileName: string,
    fileSize: int,
    fileHash: string,
    fileType: string,
    threatScore: int,
    status: string,
    uploadDate: string,
    analysisCompleted: bool,
    actionStatus: string,
    actionDate: Option<string>,
    actionNotes: Option<string>,
    vulnerabilities: seq<Finding>)

  datatype CommandEntry = CommandEntry(id: string, userId: UserId, command: string, output: string, timestamp: string)

  datatype ActionEntry = ActionEntry(
    id: string,
    analysisId: AnalysisId,
    userId: UserId,
    actionType: string,
    notes: Option<string>,
    timestamp: string)

  datatype Store = Store(
    users: map<UserId, User>,
    index: map<UserId, seq<AnalysisId>>,
    analyses: map<AnalysisId, Analysis>,
    commands: map<string, CommandEntry>,
    actions: map<string, ActionEntry>)

  /**
   * The id of the `file_analyses:metadata` entry the server seeds at start-up.
   * It is not an analysis and has no owner, so the routes on one record find
   * it and then refuse it as not the caller's.
   */
  const MetadataId: AnalysisId := "metadata"

  /** `kv.get('users:<id>:analyses') || []`: a missing list reads as empty. */
  function IndexOf(s: Store, uid: UserId): (r: seq<AnalysisId>) {
    if uid in s.index then s.index[uid] else []
  }

  /** The reading of the clock a request makes: `Date.now()` and `new Date().toISOString()`. */
  datatype Clock = Clock(millis: nat, iso: string)

  /** A route's JSON reply: a success body, or `{error}` with an HTTP status. */
  datatype Reply<+T> = Ok(body: T) | Error(status: nat, message: string)

  /** A reply together with the store the request leaves behind. */
  datatype Step<+T> = Step(reply: Reply<T>, store: Store)
}

=== FILE: results_view.dfy ===
/**
 * The results screen: the threat level shown for an analysis, the colour of
 * each finding's severity, and the screen's local action status, which
 * decides between the action buttons and the status badge.
 */
module ResultsView {
  import opened Optional
  import opened Text
  import opened Records

  /**
   * What the screen reads from the data it is given: the threat level an
   * upload flow supplies, or the score and action status of a stored record.
   */
  datatype ResultsData = ResultsData(threatLevel: Option<int>, threatScore: Option<int>, actionStatus: Option<string>)

  /** The data the history screen passes for a stored record. */
  function FromRecord(a: Analysis): (r: ResultsData) {
    ResultsData(None, Some(a.threatScore), Some(a.actionStatus))
  }

  /** JavaScript's `a || b` on a number that may be absent: `0` and absence both fall through. */
  function OrNumber(a: Option<int>, b: int): (r: int)
    ensures a.Some? && a.value != 0 ==> r == a.value
    ensures a.None? || a.value == 0 ==> r == b
  {
    if a.Some? && a.value != 0 then a.value else b
  }

  /** `data.threatLevel || data.threat_score || 0`. */
  function EffectiveLevel(threatLevel: Option<int>, threatScore: Option<int>): (l: int)
    ensures threatLevel.Some? && threatLevel.value != 0 ==> l == threatLevel.value
    ensures (threatLevel.None? || threatLevel.value == 0) && threatScore.Some? ==> l == threatScore.value
    ensures (threatLevel.None? || threatLevel.value == 0) && threatScore.None? ==> l == 0
  {
    OrNumber(threatLevel, OrNumber(threatScore, 0))
  }

  datatype Level = Low | Medium | High | Critical

  /** The position of a level on the scale, lowest first. */
  function Rank(v: Level): (r: nat) {
    match v
    case Low => 0
    case Medium => 1
    case High => 2
    case Critical => 3
  }

  /** `getThreatLevel`: 80 and above is critical, 60 high, 40 medium. */
  function LevelOf(level: int): (v: Level)
    ensures v == Critical <==> level >= 80
    ensures v == High <==> 60 <= level < 80
    ensures v == Medium <==> 40 <= level < 60
    ensures v == Low <==> level < 40
  {
    if level >= 80 then Critical
    else if level >= 60 then High
    else if level >= 40 then Medium
    else Low
  }

  /** A higher level never shows a lower threat. */
  lemma LevelMonotone(a: int, b: int)
    requires a <= b
    ensures Rank(LevelOf(a)) <= Rank(LevelOf(b))
  {
  }

  function Label(v: Level): (r: string) {
    match v
    case Critical => "CRITICAL"
    case High => "HIGH"
    case Medium => "MEDIUM"
    case Low => "LOW"
  }

  /** The palette shared by the threat level and the severity colours. */
  function Color(v: Level): (r: string) {
    match v
    case Critical => "#FF1E56"
    case High => "#FFA500"
    case Medium => "#FFD700"
    case Low => "#00FF88"
  }

  /** The four levels are told apart both by label and by colour. */
  lemma LevelsDistinguishable(v: Level, w: Level)
    requires v != w
    ensures Label(v) != Label(w) && Color(v) != Color(w)
  {
  }

  /** `getSeverityColor`. */
  function SeverityColor(severity: string): (c: string)
    ensures severity == "Critical" ==> c == Color(Critical)
    ensures severity == "High" ==> c == Color(High)
    ensures severity == "Medium" ==> c == Color(Medium)
    ensures severity !in {"Critical", "High", "Medium"} ==> c == Color(Low)
  {
    if severity == "Critical" then Color(Critical)
    else if severity == "High" then Color(High)
    else if severity == "Medium" then Color(Medium)
    else Color(Low)
  }

  /** Critical, High and Medium get three different colours, none of them the default. */
  lemma SeverityColorsDistinct()
    ensures SeverityColor("Critical") != SeverityColor("High")
    ensures SeverityColor("Critical") != SeverityColor("Medium")
    ensures SeverityColor("High") != SeverityColor("Medium")
    ensures forall s :: s in {"Critical", "High", "Medium"} ==> SeverityColor(s) != Color(Low)
  {
    LevelsDistinguishable(Critical, High);
    LevelsDistinguishable(Critical, Medium);
    LevelsDistinguishable(High, Medium);
  }

  /** The screen's local state: the action status shown and whether an action request is in flight. */
  datatype Panel = Panel(status: string, applying: bool)

  /** `data.action_status || 'pending'`. */
  function InitialStatus(actionStatus: Option<string>): (r: string)
    ensures r != []
    ensures actionStatus.Some? && actionStatus.value != [] ==> r == actionStatus.value
    ensures actionStatus.None? || actionStatus.value == [] ==> r == "pending"
  {
    if actionStatus.Some? && actionStatus.value != [] then actionStatus.value else "pending"
  }

  function Open(actionStatus: Option<string>): (p: Panel)
    ensures p.status == InitialStatus(actionStatus) && !p.applying
  {
    Panel(InitialStatus(actionStatus), false)
  }

  /** The notes the screen sends with an action. */
  function ActionNote(action: string): (r: string) {
    "Action applied: " + action
  }

  /** The first half of `handleApplyAction`: ask for confirmation, then mark the request in flight. */
  function BeginAction(p: Panel, confirmed: bool): (q: Panel)
    ensures !confirmed ==> q == p
    ensures confirmed ==> q.applying && q.status == p.status
  {
    if confirmed then p.(applying := true) else p
  }

  datatype Outcome = Succeeded | Failed

  /** The second half: the status becomes the action only when the request succeeded; the request is over either way. */
  function FinishAction(p: Panel, action: string, outcome: Outcome): (q: Panel)
    ensures !q.applying
    ensures outcome == Succeeded ==> q.status == action
    ensures outcome == Failed ==> q.status == p.status
  {
    match outcome
    case Succeeded => Panel(action, false)
    case Failed => p.(applying := false)
  }

  /** The part of the screen the status decides. */
  datatype Controls = Buttons(enabled: bool) | Badge(text: string)

  function Render(p: Panel): (c: Controls)
    ensures c.Buttons? <==> p.status == "pending"
    ensures c.Buttons? ==> (c.enabled <==> !p.applying)
    ensures c.Badge? ==> c.text == "File " + ToUpper(p.status)
  {
    if p.status == "pending" then Buttons(!p.applying) else Badge("File " + ToUpper(p.status))
  }

  /** The value of the Status row of the details card. */
  function StatusRow(p: Panel): (r: string)
    ensures p.status == "pending" ==> r == "Analyzed"
    ensures p.status != "pending" ==> r == ToUpper(p.status)
  {
    if p.status == "pending" then "Analyzed" else ToUpper(p.status)
  }

  /** A confirmed action that succeeds replaces the buttons with the badge naming it. */
  lemma SucceededActionShowsBadge(p: Panel, action: string)
    requires action != "pending"
    ensures var q := FinishAction(BeginAction(p, true), action, Succeeded);
      Render(q) == Badge("File " + ToUpper(action)) && StatusRow(q) == ToUpper(action)
  {
  }

  /** A failed action leaves a pending record's buttons in place, enabled again. */
  lemma FailedActionKeepsButtons(p: Panel, action: string)
    requires p.status == "pending"
    ensures Render(FinishAction(BeginAction(p, true), action, Failed)) == Buttons(true)
  {
  }

  /** While the request is in flight the buttons are shown but disabled. */
  lemma InFlightDisablesButtons(p: Panel)
    requires p.status == "pending"
    ensures Render(BeginAction(p, true)) == Buttons(false)
  {
  }

  /** The screen opened on a stored record shows the record's score and, when it has one, its action status. */
  lemma OpenedRecordShowsStoredValues(a: Analysis)
    ensures EffectiveLevel(FromRecord(a).threatLevel, FromRecord(a).threatScore) == a.threatScore
    ensures a.actionStatus != [] ==> Open(FromRecord(a).actionStatus).status == a.actionStatus
  {
  }

  /** A record opened with no action applied offers the buttons, and its status row reads "Analyzed". */
  lemma FreshRecordOffersActions()
    ensures Render(Open(None)) == Buttons(true)
    ensures Render(Open(Some("pending"))) == Buttons(true)
    ensures StatusRow(Open(None)) == "Analyzed"
  {
  }
}

=== FILE: router.dfy ===
/**
 * Request routing: the backend registers its handlers in a fixed order and
 * a request goes to the first registered route whose method and path
 * pattern match it. A pattern segment is either literal text or a `:name`
 * parameter, which matches any non-empty path segment.
 */
module Router {
  import opened Optional
  import opened Records
  import Server

  datatype Method = Get | Post | Delete

  datatype Segment = Lit(text: string) | Param

  datatype Handler =
    | SignUp | SignIn | Session
    | Upload | GetAnalysis | History | DeleteAnalysis | ApplyAction | FilesByStatus
    | CliExecute | CliHistory | DashboardStats | Health

  datatype Route = Route(verb: Method, pattern: seq<Segment>, handler: Handler)

  /** The function name every route lives under. */
  const Base := "make-server-05e5e588"

  predicate SegmentMatches(p: Segment, part: string) {
    match p
    case Lit(t) => t == part
    case Param => part != []
  }

  /** The pattern matches the path segment by segment. */
  predicate PatternMatches(pattern: seq<Segment>, path: seq<string>) {
    if pattern == [] || path == [] then pattern == [] && path == []
    else SegmentMatches(pattern[0], path[0]) && PatternMatches(pattern[1..], path[1..])
  }

  lemma {:induction false} PatternMatchesPointwise(pattern: seq<Segment>, path: seq<string>)
    ensures PatternMatches(pattern, path) <==>
      |pattern| == |path| && forall i :: 0 <= i < |path| ==> SegmentMatches(pattern[i], path[i])
  {
    if pattern != [] && path != [] {
      PatternMatchesPointwise(pattern[1..], path[1..]);
      assert forall i :: 1 <= i < |path| ==> path[1..][i - 1] == path[i];
    }
  }

  predicate Accepts(r: Route, m: Method, path: seq<string>) {
    r.verb == m && PatternMatches(r.pattern, path)
  }

  /** Route `i` accepts the request and no earlier route does. */
  predicate FirstAccepting(routes: seq<Route>, i: int, m: Method, path: seq<string>) {
    0 <= i < |routes| && Accepts(routes[i], m, path) && forall j :: 0 <= j < i ==> !Accepts(routes[j], m, path)
  }

  /** The handler of the first route, in registration order, that accepts the request. */
  function Dispatch(routes: seq<Route>, m: Method, path: seq<string>): (h: Option<Handler>)
    ensures h.None? <==> forall i :: 0 <= i < |routes| ==> !Accepts(routes[i], m, path)
    ensures h.Some? ==> exists i :: FirstAccepting(routes, i, m, path) && routes[i].handler == h.value
  {
    if routes == [] then None
    else if Accepts(routes[0], m, path) then Some(routes[0].handler)
    else
      var h := Dispatch(routes[1..], m, path);
      assert h.Some? ==> exists i :: FirstAccepting(routes, i, m, path) && routes[i].handler == h.value by {
        if h.Some? {
          var i :| FirstAccepting(routes[1..], i, m, path) && routes[1..][i].handler == h.value;
          assert forall j :: 1 <= j < i + 1 ==> routes[j] == routes[1..][j - 1];
          assert FirstAccepting(routes, i + 1, m, path);
        }
      }
      assert h.None? ==> forall i :: 0 <= i < |routes| ==> !Accepts(routes[i], m, path) by {
        if h.None? {
          assert forall i :: 1 <= i < |routes| ==> routes[i] == routes[1..][i - 1];
        }
      }
      h
  }

  function Under(rest: seq<Segment>): (r: seq<Segment>) {
    [Lit(Base)] + rest
  }

  /** The routes in the order the backend registers them. */
  const RegisteredRoutes: seq<Route> := [
    Route(Post, Under([Lit("auth"), Lit("signup")]), SignUp),
    Route(Post, Under([Lit("auth"), Lit("signin")]), SignIn),
    Route(Get, Under([Lit("auth"), Lit("session")]), Session),
    Route(Post, Under([Lit("analysis"), Lit("upload")]), Upload),
    Route(Get, Under([Lit("analysis"), Param]), GetAnalysis),
    Route(Get, Under([Lit("analysis"), Lit("history")]), History),
    Route(Delete, Under([Lit("analysis"), Param]), DeleteAnalysis),
    Route(Post, Under([Lit("analysis"), Param, Lit("action")]), ApplyAction),
    Route(Get, Under([Lit("files"), Lit("by-status"), Param]), FilesByStatus),
    Route(Post, Under([Lit("cli"), Lit("execute")]), CliExecute),
    Route(Get, Under([Lit("cli"), Lit("history")]), CliHistory),
    Route(Get, Under([Lit("dashboard"), Lit("stats")]), DashboardStats),
    Route(Get, Under([Lit("health")]), Health)]

  /** The same routes with the literal history route registered before the `:id` route that would capture it. */
  const OrderedRoutes: seq<Route> := RegisteredRoutes[..4] + [RegisteredRoutes[5], RegisteredRoutes[4]] + RegisteredRoutes[6..]

  /** The path of `/analysis/<id>`. */
  function AnalysisPath(id: string): (r: seq<string>) {
    [Base, "analysis", id]
  }

  /** The route the history screen requests, `GET /analysis/history`. */
  const HistoryPath: seq<string> := AnalysisPath("history")

  lemma FirstFour(m: Method, path: seq<string>)
    requires |path| == 3 && path[1] == "analysis" && m == Get
    ensures forall i :: 0 <= i < 4 ==> !Accepts(RegisteredRoutes[i], m, path)
  {
    forall i | 0 <= i < 4 ensures !Accepts(RegisteredRoutes[i], m, path) {
      PatternMatchesPointwise(RegisteredRoutes[i].pattern, path);
      if i == 3 {
        assert RegisteredRoutes[i].pattern[1] == Lit("analysis");
        assert RegisteredRoutes[i].pattern[2] == Lit("upload");
        assert "upload" != "history";
      }
    }
  }

  /** A route that accepts the request, with none before it accepting, decides where the request goes. */
  lemma DispatchFirst(routes: seq<Route>, i: int, m: Method, path: seq<string>)
    requires FirstAccepting(routes, i, m, path)
    ensures Dispatch(routes, m, path) == Some(routes[i].handler)
  {
    var h := Dispatch(routes, m, path);
    var k :| FirstAccepting(routes, k, m, path) && routes[k].handler == h.value;
  }

  /** The `:id` route accepts every `GET /analysis/<id>` with a non-empty id, and nothing registered before it does. */
  lemma IdRouteFirst(id: string)
    requires id != []
    ensures FirstAccepting(RegisteredRoutes, 4, Get, AnalysisPath(id))
    ensures RegisteredRoutes[4].handler == GetAnalysis
  {
    FirstFour(Get, AnalysisPath(id));
    PatternMatchesPointwise(RegisteredRoutes[4].pattern, AnalysisPath(id));
  }

  /** As registered, every `GET /analysis/<id>` goes to the single-record handler. */
  lemma AnalysisPathRouted(id: string)
    requires id != []
    ensures Dispatch(RegisteredRoutes, Get, AnalysisPath(id)) == Some(GetAnalysis)
  {
    IdRouteFirst(id);
    DispatchFirst(RegisteredRoutes, 4, Get, AnalysisPath(id));
  }

  /** As registered, `GET /analysis/history` is taken by the `:id` route, with `id` = "history". */
  lemma HistoryShadowed()
    ensures Dispatch(RegisteredRoutes, Get, HistoryPath) == Some(GetAnalysis)
    ensures HistoryPath[2] == "history"
  {
    AnalysisPathRouted("history");
  }

  /** The history route accepts exactly one request: `GET /analysis/history`. */
  lemma HistoryRouteAccepts(m: Method, path: seq<string>)
    ensures Accepts(RegisteredRoutes[5], m, path) <==> m == Get && path == HistoryPath
  {
    PatternMatchesPointwise(RegisteredRoutes[5].pattern, path);
    PatternMatchesPointwise(RegisteredRoutes[5].pattern, HistoryPath);
  }

  /** Only the sixth registered route carries the history handler. */
  lemma HistoryHandlerAtFive(i: int)
    requires 0 <= i < |RegisteredRoutes| && RegisteredRoutes[i].handler == History
    ensures i == 5
  {
  }

  /** As registered, no request of any method or path ever reaches the history handler. */
  lemma HistoryUnreachable(m: Method, path: seq<string>)
    ensures Dispatch(RegisteredRoutes, m, path) != Some(History)
  {
    var h := Dispatch(RegisteredRoutes, m, path);
    if h == Some(History) {
      var i :| FirstAccepting(RegisteredRoutes, i, m, path) && RegisteredRoutes[i].handler == History;
      HistoryHandlerAtFive(i);
      HistoryRouteAccepts(m, path);
      IdRouteFirst("history");
    }
  }

  /** The id the `:id` route hands to the single-record handler is "history", which no upload ever creates. */
  lemma HistoryIsNoAnalysisId(c: Clock, suffix: string)
    ensures Server.NewAnalysisId(c, suffix) != "history"
  {
    assert Server.NewAnalysisId(c, suffix)[..9] == "analysis_";
  }

  /** So the history screen's request is answered with an error, never with the list of the caller's analyses. */
  lemma ShadowedHistoryFails(s: Store, sessions: Server.Sessions, header: Option<string>)
    requires "history" !in s.analyses
    ensures Server.GetAnalysis(s, sessions, header, HistoryPath[2]).Error?
  {
  }

  /** Moving one route past a neighbour that cannot accept the request changes nothing. */
  lemma {:induction false} SwapPastNonMatching(a: seq<Route>, x: Route, y: Route, b: seq<Route>, m: Method, path: seq<string>)
    requires !Accepts(y, m, path)
    ensures Dispatch(a + [x, y] + b, m, path) == Dispatch(a + [y, x] + b, m, path)
  {
    if a == [] {
      assert ([x, y] + b)[1..] == [y] + b;
      assert ([y] + b)[1..] == b;
      assert ([y, x] + b)[1..] == [x] + b;
      assert (a + [x, y] + b) == [x, y] + b;
      assert (a + [y, x] + b) == [y, x] + b;
      if !Accepts(x, m, path) {
        assert ([x] + b)[1..] == b;
      }
    } else {
      SwapPastNonMatching(a[1..], x, y, b, m, path);
      assert (a + [x, y] + b)[1..] == a[1..] + [x, y] + b;
      assert (a + [y, x] + b)[1..] == a[1..] + [y, x] + b;
    }
  }

  lemma OrderedSplit()
    ensures RegisteredRoutes == RegisteredRoutes[..4] + [RegisteredRoutes[4], RegisteredRoutes[5]] + RegisteredRoutes[6..]
  {
  }

  /** With the corrected order the history screen's request reaches the history handler. */
  lemma HistoryReachable()
    ensures Dispatch(OrderedRoutes, Get, HistoryPath) == Some(History)
  {
    FirstFour(Get, HistoryPath);
    assert forall i :: 0 <= i < 4 ==> OrderedRoutes[i] == RegisteredRoutes[i];
    assert OrderedRoutes[4] == RegisteredRoutes[5] && RegisteredRoutes[5].handler == History;
    HistoryRouteAccepts(Get, HistoryPath);
    DispatchFirst(OrderedRoutes, 4, Get, HistoryPath);
  }

  /** The reordering only changes where the history request goes: every other request is routed as before. */
  lemma OrderedRoutesAgreeElsewhere(m: Method, path: seq<string>)
    requires (m, path) != (Get, HistoryPath)
    ensures Dispatch(OrderedRoutes, m, path) == Dispatch(RegisteredRoutes, m, path)
  {
    HistoryRouteAccepts(m, path);
    OrderedSplit();
    SwapPastNonMatching(RegisteredRoutes[..4], RegisteredRoutes[4], RegisteredRoutes[5], RegisteredRoutes[6..], m, path);
  }

  /** With the corrected order, `GET /analysis/<id>` still reaches the single-record handler for every other id. */
  lemma AnalysisStillReachable(id: string)
    requires id != [] && id != "history"
    ensures Dispatch(OrderedRoutes, Get, AnalysisPath(id)) == Some(GetAnalysis)
  {
    assert AnalysisPath(id)[2] == id;
    OrderedRoutesAgreeElsewhere(Get, AnalysisPath(id));
    AnalysisPathRouted(id);
  }
}

=== FILE: scoring.dfy ===
/**
 * How an upload is "analysed": a random threat score, the risk label and
 * finding severity derived from it, and a number of OWASP Top 10 findings
 * drawn at random from the fixed catalogue. Each `Math.random()` draw is a
 * parameter, a real number in [0, 1).
 */
module Scoring {
  import opened Text
  import opened Records

  datatype Category = Category(id: string, name: string, description: string)

  /** The OWASP Top 10 (2021) catalogue findings are drawn from, in order. */
  const OwaspCategories: seq<Category> := [
    Category("A01", "Broken Access Control", "Unauthorized access to resources"),
    Category("A02", "Cryptographic Failures", "Weak encryption detected"),
    Category("A03", "Injection", "SQL/Command injection patterns found"),
    Category("A04", "Insecure Design", "Poor security architecture"),
    Category("A05", "Security Misconfiguration", "Default configurations detected"),
    Category("A06", "Vulnerable Components", "Outdated libraries used"),
    Category("A07", "Authentication Failures", "Weak authentication mechanisms"),
    Category("A08", "Software and Data Integrity", "Unsigned code execution"),
    Category("A09", "Logging Failures", "Insufficient logging detected"),
    Category("A10", "Server-Side Request Forgery", "SSRF patterns identified")]

  /** The ten category identifiers. */
  predicate IsOwaspId(s: string) {
    s in {"A01", "A02", "A03", "A04", "A05", "A06", "A07", "A08", "A09", "A10"}
  }

  /** A `Math.random()` result. */
  predicate IsUnit(x: real) {
    0.0 <= x < 1.0
  }

  /** `Math.floor(Math.random() * 100)`: the score is the whole part of the scaled draw. */
  function ThreatScore(x: real): (score: int)
    requires IsUnit(x)
    ensures 0 <= score <= 99
    ensures score as real <= x * 100.0 < score as real + 1.0
  {
    (x * 100.0).Floor
  }

  /** `Math.floor(Math.random() * owaspCategories.length)`: a valid catalogue position. */
  function PickIndex(x: real): (i: nat)
    requires IsUnit(x)
    ensures i < |OwaspCategories|
    ensures i as real <= x * 10.0 < i as real + 1.0
  {
    (x * 10.0).Floor
  }

  /** The record's risk label: above 70 is high, above 40 medium. */
  function RiskLabel(score: int): (r: string)
    ensures r == "High Risk" <==> score > 70
    ensures r == "Medium Risk" <==> 40 < score <= 70
    ensures r == "Low Risk" <==> score <= 40
  {
    if score > 70 then "High Risk" else if score > 40 then "Medium Risk" else "Low Risk"
  }

  /** The severity every finding of a record carries, on the same thresholds as the risk label. */
  function SeverityFor(score: int): (r: string) {
    if score > 70 then "Critical" else if score > 40 then "High" else "Medium"
  }

  /** The loop bound `i < numVulns && i < owaspCategories.length` with `numVulns = floor(score / 20)`. */
  function FindingCount(score: nat): (n: nat)
    ensures n <= |OwaspCategories| && n <= score / 20
    ensures n == |OwaspCategories| || n == score / 20
  {
    if score / 20 < |OwaspCategories| then score / 20 else |OwaspCategories|
  }

  /** A score in [0, 99] never yields more than four findings. */
  lemma FindingCountOfScore(score: nat)
    requires score <= 99
    ensures FindingCount(score) <= 4
    ensures FindingCount(score) == score / 20
  {
  }

  /** `vuln_<ms>_<i>`. */
  function FindingId(millis: nat, i: nat): (r: string) {
    "vuln_" + NatToString(millis) + "_" + NatToString(i)
  }

  /** Enough valid draws for the findings of a score. */
  predicate ValidPicks(score: nat, picks: seq<real>) {
    && |picks| >= FindingCount(score)
    && forall i :: 0 <= i < |picks| ==> IsUnit(picks[i])
  }

  /** The `i`-th finding: the category picked by the `i`-th draw. */
  function MakeFinding(analysisId: AnalysisId, score: nat, pick: real, clock: Clock, i: nat): (f: Finding)
    requires IsUnit(pick)
    ensures IsOwaspId(f.owaspId)
    ensures f.analysisId == analysisId && f.severity == SeverityFor(score) && f.detectedAt == clock.iso
    ensures exists c :: c in OwaspCategories && f.owaspId == c.id && f.owaspName == c.name && f.description == c.description
  {
    var c := OwaspCategories[PickIndex(pick)];
    Finding(FindingId(clock.millis, i), analysisId, c.id, c.name, SeverityFor(score), c.description, clock.iso)
  }

  /** The findings loop of the upload route. */
  function MakeFindings(analysisId: AnalysisId, score: nat, picks: seq<real>, clock: Clock): (fs: seq<Finding>)
    requires ValidPicks(score, picks)
    ensures |fs| == FindingCount(score)
    ensures forall i :: 0 <= i < |fs| ==> fs[i].id == FindingId(clock.millis, i)
    ensures forall i :: 0 <= i < |fs| ==>
      var c := OwaspCategories[PickIndex(picks[i])];
      fs[i].owaspId == c.id && fs[i].owaspName == c.name && fs[i].description == c.description
    ensures forall f :: f in fs ==>
      IsOwaspId(f.owaspId) && f.analysisId == analysisId && f.severity == SeverityFor(score) && f.detectedAt == clock.iso
  {
    seq(FindingCount(score), i requires 0 <= i < FindingCount(score) => MakeFinding(analysisId, score, picks[i], clock, i))
  }

  /** Every finding of an upload names a catalogue category, the new record and the record's severity. */
  lemma FindingsWellFormed(analysisId: AnalysisId, score: nat, picks: seq<real>, clock: Clock)
    requires score <= 99 && ValidPicks(score, picks)
    ensures |MakeFindings(analysisId, score, picks, clock)| <= 4
    ensures forall f :: f in MakeFindings(analysisId, score, picks, clock) ==>
      IsOwaspId(f.owaspId) && f.analysisId == analysisId && f.severity == SeverityFor(score)
  {
    FindingCountOfScore(score);
  }

  lemma FindingIdInjective(millis: nat, i: nat, j: nat)
    requires FindingId(millis, i) == FindingId(millis, j)
    ensures i == j
  {
    var p := "vuln_" + NatToString(millis) + "_";
    assert FindingId(millis, i) == p + NatToString(i);
    assert FindingId(millis, j) == p + NatToString(j);
    assert NatToString(i) == FindingId(millis, i)[|p|..];
    assert NatToString(j) == FindingId(millis, j)[|p|..];
    NatToStringInjective(i, j);
  }

  /** The findings of one upload carry pairwise distinct ids. */
  lemma FindingIdsDistinct(analysisId: AnalysisId, score: nat, picks: seq<real>, clock: Clock)
    requires ValidPicks(score, picks)
    ensures var fs := MakeFindings(analysisId, score, picks, clock);
      forall i, j :: 0 <= i < j < |fs| ==> fs[i].id != fs[j].id
  {
    var fs := MakeFindings(analysisId, score, picks, clock);
    forall i, j | 0 <= i < j < |fs| ensures fs[i].id != fs[j].id {
      if fs[i].id == fs[j].id {
        FindingIdInjective(clock.millis, i, j);
      }
    }
  }
}

=== FILE: seqs.dfy ===
/** Order-preserving selection from sequences, the shape of JavaScript's `Array.prototype.filter`. */
module Seqs {

  /** `a` can be obtained from `b` by deleting elements, keeping the order of the rest. */
  predicate IsSubsequence<T(==)>(a: seq<T>, b: seq<T>)
    decreases |b|
  {
    if a == [] then true
    else if b == [] then false
    else if a[0] == b[0] then IsSubsequence(a[1..], b[1..])
    else IsSubsequence(a, b[1..])
  }

  /** `xs.filter(p)`. */
  function Filter<T(==,!new)>(xs: seq<T>, p: T -> bool): (r: seq<T>)
    ensures forall y :: y in r <==> y in xs && p(y)
    ensures forall y :: p(y) ==> multiset(r)[y] == multiset(xs)[y]
    ensures forall y :: !p(y) ==> multiset(r)[y] == 0
    ensures IsSubsequence(r, xs)
    ensures |r| <= |xs|
  {
    if xs == [] then []
    else
      var rest := Filter(xs[1..], p);
      assert xs == [xs[0]] + xs[1..];
      if p(xs[0]) then
        assert ([xs[0]] + rest)[1..] == rest;
        [xs[0]] + rest
      else
        rest
  }

  /** Filtering keeps everything when every element passes. */
  lemma {:induction false} FilterAll<T(!new)>(xs: seq<T>, p: T -> bool)
    requires forall y :: y in xs ==> p(y)
    ensures Filter(xs, p) == xs
  {
    if xs != [] {
      FilterAll(xs[1..], p);
      assert xs == [xs[0]] + xs[1..];
    }
  }

  /** Every element of a subsequence occurs in the original. */
  lemma {:induction false} SubsequenceMembers<T>(a: seq<T>, b: seq<T>)
    requires IsSubsequence(a, b)
    ensures forall y :: y in a ==> y in b
    decreases |b|
  {
    if a != [] && b != [] {
      if a[0] == b[0] {
        SubsequenceMembers(a[1..], b[1..]);
        assert a == [a[0]] + a[1..];
      } else {
        SubsequenceMembers(a, b[1..]);
      }
    }
  }
}

=== FILE: server.dfy ===
/**
 * The route handlers of the backend, each a transition over the store:
 * authenticate the bearer token, read, check, write, reply. Every handler
 * that takes a record id checks, in this order: 401 when the caller is not
 * authenticated, 404 when the record is missing, 403 when the caller does
 * not own it.
 */
module Server {
  import opened Optional
  import opened Text
  import opened Seqs
  import opened Records
  import opened Scoring
  import Cli

  /**
   * The auth provider as the server's one shared client sees it: who holds which
   * access token, and the session the client keeps from the last `/auth/signin`.
   */
  datatype Sessions = Sessions(tokens: map<string, UserId>, stored: Option<UserId>)

  /** `c.req.header('Authorization')?.split(' ')[1]`. */
  function BearerToken(header: Option<string>): (r: Option<string>) {
    match header
    case None => None
    case Some(h) => SecondField(h)
  }

  /** The header carries a token that is not falsy (neither `undefined` nor `""`). */
  predicate Presented(header: Option<string>) {
    BearerToken(header).Some? && BearerToken(header).value != []
  }

  /**
   * `supabase.auth.getUser(accessToken!)`: a presented token names its holder,
   * or nobody when the provider does not know it. A missing or empty token makes
   * the client fall back to its stored session, which is nobody until someone has
   * signed in through the same client.
   */
  function Authenticate(sessions: Sessions, header: Option<string>): (r: Option<UserId>)
    ensures Presented(header) ==> (r.Some? <==> BearerToken(header).value in sessions.tokens)
    ensures Presented(header) && r.Some? ==> r.value == sessions.tokens[BearerToken(header).value]
    ensures !Presented(header) ==> r == sessions.stored
  {
    match BearerToken(header)
    case None => sessions.stored
    case Some(t) =>
      if t == [] then sessions.stored
      else if t in sessions.tokens then Some(sessions.tokens[t])
      else None
  }

  /** The header the client builds, `Bearer <token>`, authenticates as the token's holder. */
  lemma AuthenticateBearer(sessions: Sessions, token: string)
    requires ' ' !in token
    ensures Authenticate(sessions, Some("Bearer " + token))
      == if token == [] then sessions.stored
         else if token in sessions.tokens then Some(sessions.tokens[token])
         else None
  {
    assert "Bearer " + token == "Bearer" + " " + token;
    SecondFieldOfPair("Bearer", token);
  }

  /**
   * `POST /auth/signin` on the shared client: the provider issues `token` to the
   * user, and the client keeps that user's session.
   */
  function SignIn(sessions: Sessions, uid: UserId, token: string): (t: Sessions)
    ensures token in t.tokens && t.tokens[token] == uid
    ensures forall k :: k in sessions.tokens && k != token ==> k in t.tokens && t.tokens[k] == sessions.tokens[k]
    ensures t.stored == Some(uid)
  {
    Sessions(sessions.tokens[token := uid], Some(uid))
  }

  /** A request without an `Authorization` header is the stored session's user, if any. */
  lemma NoHeaderIsStoredSession(sessions: Sessions)
    ensures Authenticate(sessions, None) == sessions.stored
    ensures sessions.stored.None? ==> Authenticate(sessions, None).None?
  {
  }

  /** After any sign-in, a request with no header acts as the last user to sign in. */
  lemma HeaderlessAfterSignIn(sessions: Sessions, uid: UserId, token: string, later: string)
    requires later !in sessions.tokens && later != token && later != [] && ' ' !in later
    ensures Authenticate(SignIn(sessions, uid, token), None) == Some(uid)
    ensures Authenticate(SignIn(sessions, uid, token), Some("Bearer ")) == Some(uid)
    ensures Authenticate(SignIn(sessions, uid, token), Some("Bearer " + later)).None?
  {
    var t := SignIn(sessions, uid, token);
    assert later !in t.tokens;
    assert "Bearer " == "Bearer " + [];
    AuthenticateBearer(t, []);
    AuthenticateBearer(t, later);
  }

  function Unauthorized<T>(): (r: Reply<T>) {
    Error(401, "Unauthorized")
  }

  /** Two maps that agree on every key but `key`. */
  predicate AgreeExcept<V(==)>(m1: map<string, V>, m2: map<string, V>, key: string) {
    && (forall k :: k in m1 && k != key ==> k in m2 && m2[k] == m1[k])
    && (forall k :: k in m2 && k != key ==> k in m1)
  }

  /** Both replies are the same error. */
  predicate SameError<A, B>(a: Reply<A>, b: Reply<B>) {
    a.Error? && b.Error? && a.status == b.status && a.message == b.message
  }

  /** The record `id` is an analysis that exists and belongs to `uid`. */
  predicate Owns(s: Store, uid: UserId, id: AnalysisId) {
    id != MetadataId && id in s.analyses && s.analyses[id].userId == uid
  }

  /** Upload ids start with `analysis_`, so no upload ever creates the seeded `metadata` entry. */
  lemma MetadataIsNoAnalysisId(c: Clock, suffix: string)
    ensures NewAnalysisId(c, suffix) != MetadataId
  {
    assert NewAnalysisId(c, suffix)[0] == 'a' != MetadataId[0];
  }

  // ==================== upload ====================

  datatype UploadRequest = UploadRequest(fileName: string, fileSize: int, fileHash: string, fileType: string)

  /** The random draws one upload consumes: the id suffix, the score draw and one draw per finding. */
  datatype Draws = Draws(idSuffix: string, score: real, picks: seq<real>)

  predicate ValidDraws(d: Draws) {
    IsUnit(d.score) && ValidPicks(ThreatScore(d.score), d.picks)
  }

  datatype Uploaded = Uploaded(analysisId: AnalysisId, threatScore: int, status: string)

  /** `analysis_<ms>_<random suffix>`. */
  function NewAnalysisId(clock: Clock, suffix: string): (r: AnalysisId) {
    "analysis_" + NatToString(clock.millis) + "_" + suffix
  }

  /** The user's counters after one more upload with this score. */
  function CountUpload(u: User, score: int): (r: User) {
    u.(totalAnalyses := u.totalAnalyses + 1,
       totalThreatsDetected := if score > 70 then u.totalThreatsDetected + 1 else u.totalThreatsDetected)
  }

  /** The record an upload stores, as the upload route promises it. */
  predicate FreshRecord(a: Analysis, id: AnalysisId, uid: UserId, req: UploadRequest, score: int) {
    && a.id == id && a.userId == uid
    && a.fileName == req.fileName && a.fileSize == req.fileSize
    && a.fileHash == req.fileHash && a.fileType == req.fileType
    && 0 <= a.threatScore <= 99 && a.threatScore == score
    && a.status == RiskLabel(score)
    && !a.analysisCompleted
    && a.actionStatus == "pending" && a.actionDate.None? && a.actionNotes.None?
    && |a.vulnerabilities| == score / 20 <= 4
    && forall f :: f in a.vulnerabilities ==>
         IsOwaspId(f.owaspId) && f.analysisId == id && f.severity == SeverityFor(score)
  }

  /** The user counters move as an upload promises: one more analysis, one more threat above 70. */
  predicate Counted(before: map<UserId, User>, after: map<UserId, User>, uid: UserId, score: int) {
    && after.Keys == before.Keys
    && (forall u :: u in before && u != uid ==> after[u] == before[u])
    && (uid in before ==>
          && after[uid].totalAnalyses == before[uid].totalAnalyses + 1
          && after[uid].totalThreatsDetected == before[uid].totalThreatsDetected + (if score > 70 then 1 else 0)
          && after[uid].(totalAnalyses := 0, totalThreatsDetected := 0)
             == before[uid].(totalAnalyses := 0, totalThreatsDetected := 0))
  }

  /** `POST /analysis/upload`. */
  function Upload(s: Store, sessions: Sessions, header: Option<string>, req: UploadRequest, d: Draws, clock: Clock)
    : (r: Step<Uploaded>)
    requires ValidDraws(d)
    ensures Authenticate(sessions, header).None? ==> r == Step(Unauthorized(), s)
    ensures Authenticate(sessions, header).Some? ==>
      var uid := Authenticate(sessions, header).value;
      var id := NewAnalysisId(clock, d.idSuffix);
      && r.reply.Ok?
      && r.reply.body.analysisId == id
      && id in r.store.analyses
      && FreshRecord(r.store.analyses[id], id, uid, req, r.reply.body.threatScore)
      && r.reply.body.status == RiskLabel(r.reply.body.threatScore)
      && AgreeExcept(s.analyses, r.store.analyses, id)
      && IndexOf(r.store, uid) == [id] + IndexOf(s, uid)
      && (forall u :: u != uid ==> IndexOf(r.store, u) == IndexOf(s, u))
      && Counted(s.users, r.store.users, uid, r.reply.body.threatScore)
      && r.store.commands == s.commands && r.store.actions == s.actions
  {
    match Authenticate(sessions, header)
    case None => Step(Unauthorized(), s)
    case Some(uid) =>
      var id := NewAnalysisId(clock, d.idSuffix);
      var score := ThreatScore(d.score);
      var findings := MakeFindings(id, score, d.picks, clock);
      FindingsWellFormed(id, score, d.picks, clock);
      FindingCountOfScore(score);
      var record := Analysis(id, uid, req.fileName, req.fileSize, req.fileHash, req.fileType, score,
        RiskLabel(score), clock.iso, false, "pending", None, None, findings);
      var users := if uid in s.users then s.users[uid := CountUpload(s.users[uid], score)] else s.users;
      var t := s.(analyses := s.analyses[id := record],
                  index := s.index[uid := [id] + IndexOf(s, uid)],
                  users := users);
      Step(Ok(Uploaded(id, score, RiskLabel(score))), t)
  }

  // ==================== read, delete, act on one record ====================

  /** The checks shared by the routes on one record, in the order they are made. */
  function Lookup(s: Store, user: Option<UserId>, id: AnalysisId, forbidden: string): (r: Reply<Analysis>)
    ensures r.Error? ==> r.status in {401, 403, 404}
    ensures r.Error? && r.status == 401 <==> user.None?
    ensures r.Error? && r.status == 404 <==> user.Some? && id != MetadataId && id !in s.analyses
    ensures r.Error? && r.status == 403 <==>
      user.Some? && (id == MetadataId || (id in s.analyses && s.analyses[id].userId != user.value))
    ensures r.Ok? <==> user.Some? && Owns(s, user.value, id)
    ensures r.Ok? ==> r.body == s.analyses[id]
  {
    match user
    case None => Unauthorized()
    case Some(uid) =>
      if id == MetadataId then Error(403, forbidden)
      else if id !in s.analyses then Error(404, "Analysis not found")
      else if s.analyses[id].userId != uid then Error(403, forbidden)
      else Ok(s.analyses[id])
  }

  /** `GET /analysis/:id`. */
  function GetAnalysis(s: Store, sessions: Sessions, header: Option<string>, id: AnalysisId): (r: Reply<Analysis>)
    ensures r.Ok? <==> Authenticate(sessions, header).Some? && Owns(s, Authenticate(sessions, header).value, id)
    ensures r.Ok? ==> r.body == s.analyses[id]
    ensures r.Error? && r.status == 403 ==> r.message == "Unauthorized access to analysis"
  {
    Lookup(s, Authenticate(sessions, header), id, "Unauthorized access to analysis")
  }

  /** `DELETE /analysis/:id`. */
  function DeleteAnalysis(s: Store, sessions: Sessions, header: Option<string>, id: AnalysisId): (r: Step<bool>)
    ensures r.reply.Error? ==> r.store == s
    ensures r.reply.Error? ==> SameError(r.reply, Lookup(s, Authenticate(sessions, header), id, "Unauthorized"))
    ensures r.reply.Ok? <==> Authenticate(sessions, header).Some? && Owns(s, Authenticate(sessions, header).value, id)
    ensures r.reply.Ok? ==>
      var uid := Authenticate(sessions, header).value;
      var before := IndexOf(s, uid);
      var after := IndexOf(r.store, uid);
      && id !in r.store.analyses
      && AgreeExcept(s.analyses, r.store.analyses, id)
      && id !in after
      && IsSubsequence(after, before)
      && (forall x :: x != id ==> multiset(after)[x] == multiset(before)[x])
      && (forall u :: u != uid ==> IndexOf(r.store, u) == IndexOf(s, u))
      && r.store.users == s.users && r.store.commands == s.commands && r.store.actions == s.actions
  {
    var user := Authenticate(sessions, header);
    match Lookup(s, user, id, "Unauthorized")
    case Error(code, msg) => Step(Error(code, msg), s)
    case Ok(_) =>
      var uid := user.value;
      var kept := Filter(IndexOf(s, uid), (x: AnalysisId) => x != id);
      Step(Ok(true), s.(analyses := s.analyses - {id}, index := s.index[uid := kept]))
  }

  /** The fields an action leaves alone: everything but status, date and notes. */
  predicate SameFile(a: Analysis, b: Analysis) {
    a.(actionStatus := "", actionDate := None, actionNotes := None)
      == b.(actionStatus := "", actionDate := None, actionNotes := None)
  }

  /** `action_<ms>`. */
  function ActionKey(clock: Clock): (r: string) {
    "action_" + NatToString(clock.millis)
  }

  /** `POST /analysis/:id/action`: overwrites the action fields whatever they held before. */
  function ApplyAction(s: Store, sessions: Sessions, header: Option<string>, id: AnalysisId,
                       action: string, notes: Option<string>, clock: Clock): (r: Step<string>)
    ensures r.reply.Error? ==> r.store == s
    ensures r.reply.Error? ==> SameError(r.reply, Lookup(s, Authenticate(sessions, header), id, "Unauthorized"))
    ensures r.reply.Ok? <==> Authenticate(sessions, header).Some? && Owns(s, Authenticate(sessions, header).value, id)
    ensures r.reply.Ok? ==>
      var uid := Authenticate(sessions, header).value;
      var key := ActionKey(clock);
      && r.reply.body == action
      && id in r.store.analyses
      && r.store.analyses[id].actionStatus == action
      && r.store.analyses[id].actionNotes == notes
      && r.store.analyses[id].actionDate == Some(clock.iso)
      && SameFile(s.analyses[id], r.store.analyses[id])
      && AgreeExcept(s.analyses, r.store.analyses, id)
      && key in r.store.actions
      && r.store.actions[key] == ActionEntry(key, id, uid, action, notes, clock.iso)
      && AgreeExcept(s.actions, r.store.actions, key)
      && r.store.users == s.users && r.store.index == s.index && r.store.commands == s.commands
  {
    var user := Authenticate(sessions, header);
    match Lookup(s, user, id, "Unauthorized")
    case Error(code, msg) => Step(Error(code, msg), s)
    case Ok(a) =>
      var updated := a.(actionStatus := action, actionDate := Some(clock.iso), actionNotes := notes);
      var key := ActionKey(clock);
      var entry := ActionEntry(key, id, user.value, action, notes, clock.iso);
      Step(Ok(action), s.(analyses := s.analyses[id := updated], actions := s.actions[key := entry]))
  }

  /** Applying two actions in a row leaves the record as the second alone would: nothing makes the first one stick. */
  lemma ApplyActionTwice(s: Store, sessions: Sessions, header: Option<string>, id: AnalysisId,
                         a1: string, n1: Option<string>, c1: Clock, a2: string, n2: Option<string>, c2: Clock)
    requires ApplyAction(s, sessions, header, id, a1, n1, c1).reply.Ok?
    ensures var s1 := ApplyAction(s, sessions, header, id, a1, n1, c1).store;
      && ApplyAction(s1, sessions, header, id, a2, n2, c2).reply.Ok?
      && ApplyAction(s1, sessions, header, id, a2, n2, c2).store.analyses
         == ApplyAction(s, sessions, header, id, a2, n2, c2).store.analyses
  {
    var s1 := ApplyAction(s, sessions, header, id, a1, n1, c1).store;
    var uid := Authenticate(sessions, header).value;
    assert Owns(s1, uid, id);
    var r2 := ApplyAction(s1, sessions, header, id, a2, n2, c2).store.analyses;
    var d2 := ApplyAction(s, sessions, header, id, a2, n2, c2).store.analyses;
    assert r2[id] == d2[id] by {
      assert SameFile(s.analyses[id], r2[id]) by {
        assert SameFile(s.analyses[id], s1.analyses[id]);
      }
    }
    assert r2.Keys == d2.Keys;
  }

  // ==================== listing ====================

  /** The ids of the list that have a stored record, in list order. */
  function Present(ids: seq<AnalysisId>, m: map<AnalysisId, Analysis>): (r: seq<AnalysisId>)
    ensures IsSubsequence(r, ids) && |r| <= |ids|
    ensures forall x :: x in r <==> x in ids && x in m
    ensures forall x :: multiset(r)[x] == if x in m then multiset(ids)[x] else 0
  {
    if ids == [] then []
    else
      var rest := Present(ids[1..], m);
      assert ids == [ids[0]] + ids[1..];
      if ids[0] in m then
        assert ([ids[0]] + rest)[1..] == rest;
        [ids[0]] + rest
      else rest
  }

  /** The `for (const id of analysisIds)` loop of the history route: fetch each id, skip the missing. */
  function Resolve(ids: seq<AnalysisId>, m: map<AnalysisId, Analysis>): (r: seq<Analysis>)
    ensures |r| == |Present(ids, m)|
    ensures forall j :: 0 <= j < |r| ==> Present(ids, m)[j] in m && r[j] == m[Present(ids, m)[j]]
  {
    if ids == [] then []
    else
      var rest := Resolve(ids[1..], m);
      if ids[0] in m then
        assert Present(ids, m) == [ids[0]] + Present(ids[1..], m);
        [m[ids[0]]] + rest
      else
        assert Present(ids, m) == Present(ids[1..], m);
        rest
  }

  /** A stored record whose id is listed is returned by the history. */
  lemma {:induction false} ResolveComplete(ids: seq<AnalysisId>, m: map<AnalysisId, Analysis>, x: AnalysisId)
    requires x in ids && x in m
    ensures m[x] in Resolve(ids, m)
  {
    if ids[0] != x {
      ResolveComplete(ids[1..], m, x);
    }
  }

  /** `GET /analysis/history`. */
  function History(s: Store, sessions: Sessions, header: Option<string>): (r: Reply<seq<Analysis>>)
    ensures Authenticate(sessions, header).None? <==> r == Unauthorized()
    ensures r.Ok? ==>
      var ids := IndexOf(s, Authenticate(sessions, header).value);
      && |r.body| == |Present(ids, s.analyses)| <= |ids|
      && (forall j :: 0 <= j < |r.body| ==> r.body[j] == s.analyses[Present(ids, s.analyses)[j]])
  {
    match Authenticate(sessions, header)
    case None => Unauthorized()
    case Some(uid) => Ok(Resolve(IndexOf(s, uid), s.analyses))
  }

  function HasStatus(status: string): (r: Analysis -> bool) {
    (a: Analysis) => a.actionStatus == status
  }

  /** The loop of the by-status route: fetch each id and keep the records whose action status matches. */
  function Matching(ids: seq<AnalysisId>, m: map<AnalysisId, Analysis>, status: string): (r: seq<Analysis>)
    ensures |r| <= |ids|
    ensures forall a :: a in r ==> a.actionStatus == status && a in m.Values
    ensures forall x :: x in ids && x in m && m[x].actionStatus == status ==> m[x] in r
  {
    if ids == [] then []
    else if ids[0] in m && m[ids[0]].actionStatus == status then [m[ids[0]]] + Matching(ids[1..], m, status)
    else Matching(ids[1..], m, status)
  }

  /** The by-status loop selects from the history list exactly, in its order. */
  lemma {:induction false} MatchingIsFilteredHistory(ids: seq<AnalysisId>, m: map<AnalysisId, Analysis>, status: string)
    ensures Matching(ids, m, status) == Filter(Resolve(ids, m), HasStatus(status))
  {
    if ids != [] {
      MatchingIsFilteredHistory(ids[1..], m, status);
      var rest := Resolve(ids[1..], m);
      if ids[0] in m {
        assert Resolve(ids, m) == [m[ids[0]]] + rest;
        assert ([m[ids[0]]] + rest)[1..] == rest;
      }
    }
  }

  /** `GET /files/by-status/:status`. */
  function FilesByStatus(s: Store, sessions: Sessions, header: Option<string>, status: string): (r: Reply<seq<Analysis>>)
    ensures Authenticate(sessions, header).None? <==> r == Unauthorized()
    ensures r.Ok? ==>
      var all := History(s, sessions, header).body;
      && r.body == Filter(all, HasStatus(status))
      && IsSubsequence(r.body, all)
      && forall a :: a in r.body <==> a in all && a.actionStatus == status
  {
    match Authenticate(sessions, header)
    case None => Unauthorized()
    case Some(uid) =>
      MatchingIsFilteredHistory(IndexOf(s, uid), s.analyses, status);
      Ok(Matching(IndexOf(s, uid), s.analyses, status))
  }

  // ==================== dashboard ====================

  predicate IsThreat(a: Analysis) {
    a.threatScore > 70
  }

  datatype Tally = Tally(scanned: nat, threats: nat, quarantined: nat, blocked: nat)

  /** The counting loop of the stats route. */
  function TallyOf(ids: seq<AnalysisId>, m: map<AnalysisId, Analysis>): (t: Tally)
    ensures t.scanned == |Resolve(ids, m)|
    ensures t.threats == |Filter(Resolve(ids, m), IsThreat)|
    ensures t.quarantined == |Matching(ids, m, "quarantined")|
    ensures t.blocked == |Matching(ids, m, "blocked")|
    ensures t.threats <= t.scanned && t.quarantined + t.blocked <= t.scanned
  {
    if ids == [] then Tally(0, 0, 0, 0)
    else
      var t := TallyOf(ids[1..], m);
      if ids[0] in m then
        var a := m[ids[0]];
        var rest := Resolve(ids[1..], m);
        assert Resolve(ids, m) == [a] + rest;
        assert ([a] + rest)[1..] == rest;
        Tally(t.scanned + 1,
              if a.threatScore > 70 then t.threats + 1 else t.threats,
              if a.actionStatus == "quarantined" then t.quarantined + 1 else t.quarantined,
              if a.actionStatus == "blocked" then t.blocked + 1 else t.blocked)
      else t
  }

  /** `Math.max(0, 100 - threatsDetected * 5)`. */
  function SystemHealth(threats: nat): (h: int)
    ensures 0 <= h <= 100
    ensures h == 100 <==> threats == 0
    ensures h == 0 <==> threats >= 20
    ensures h % 5 == 0
  {
    if 100 - threats * 5 > 0 then 100 - threats * 5 else 0
  }

  /** Each further threat costs five points of health, until none are left. */
  lemma SystemHealthStep(threats: nat)
    ensures SystemHealth(threats + 1) == if SystemHealth(threats) >= 5 then SystemHealth(threats) - 5 else 0
  {
  }

  /** More threats never mean better health. */
  lemma SystemHealthMonotone(fewer: nat, more: nat)
    requires fewer <= more
    ensures SystemHealth(more) <= SystemHealth(fewer)
  {
  }

  datatype Stats = Stats(totalScanned: nat, threatsDetected: nat, quarantined: nat, blocked: nat, systemHealth: int)

  /** `GET /dashboard/stats`. */
  function DashboardStats(s: Store, sessions: Sessions, header: Option<string>): (r: Reply<Stats>)
    ensures Authenticate(sessions, header).None? <==> r == Unauthorized()
    ensures r.Ok? ==>
      var uid := Authenticate(sessions, header).value;
      var st := r.body;
      && st.totalScanned == |History(s, sessions, header).body|
      && st.threatsDetected == |Filter(History(s, sessions, header).body, IsThreat)|
      && st.systemHealth == SystemHealth(st.threatsDetected)
      && st.quarantined == |FilesByStatus(s, sessions, header, "quarantined").body|
      && st.blocked == |FilesByStatus(s, sessions, header, "blocked").body|
      && st.threatsDetected <= st.totalScanned
      && st.quarantined + st.blocked <= st.totalScanned
      && 0 <= st.systemHealth <= 100
  {
    match Authenticate(sessions, header)
    case None => Unauthorized()
    case Some(uid) =>
      var t := TallyOf(IndexOf(s, uid), s.analyses);
      Ok(Stats(t.scanned, t.threats, t.quarantined, t.blocked, SystemHealth(t.threats)))
  }

  // ==================== terminal ====================

  datatype CliReply = CliReply(output: string, timestamp: Option<string>)

  /** `cmd_<ms>`. */
  function CommandKey(clock: Clock): (r: string) {
    "cmd_" + NatToString(clock.millis)
  }

  /** Stores one command entry under `cmd_<ms>` and touches nothing else. */
  function LogCommand(s: Store, uid: UserId, command: string, output: string, clock: Clock): (t: Store)
    ensures CommandKey(clock) in t.commands
    ensures t.commands[CommandKey(clock)] == CommandEntry(CommandKey(clock), uid, command, output, clock.iso)
    ensures AgreeExcept(s.commands, t.commands, CommandKey(clock))
    ensures t.(commands := s.commands) == s
  {
    var key := CommandKey(clock);
    s.(commands := s.commands[key := CommandEntry(key, uid, command, output, clock.iso)])
  }

  /** `POST /cli/execute`: answer the command and, unless it is `clear`, log it under the caller. */
  function CliExecute(s: Store, sessions: Sessions, header: Option<string>, command: string, clock: Clock)
    : (r: Step<CliReply>)
    ensures Authenticate(sessions, header).None? ==> r == Step(Unauthorized(), s)
    ensures Authenticate(sessions, header).Some? && Cli.Normalize(command) == "clear" ==>
      r == Step(Ok(CliReply(Cli.ClearSentinel, None)), s)
    ensures Authenticate(sessions, header).Some? && Cli.Normalize(command) != "clear" ==>
      var key := CommandKey(clock);
      && r.reply.Ok?
      && r.reply.body.output == Cli.Respond(command).text
      && r.reply.body.output != Cli.ClearSentinel
      && r.reply.body.timestamp == Some(clock.iso)
      && key in r.store.commands
      && r.store.commands[key].userId == Authenticate(sessions, header).value
      && r.store.commands[key].command == command
      && r.store.commands[key].output == r.reply.body.output
      && AgreeExcept(s.commands, r.store.commands, key)
      && r.store.(commands := s.commands) == s
  {
    match Authenticate(sessions, header)
    case None => Step(Unauthorized(), s)
    case Some(uid) =>
      Cli.OutputIsNeverSentinel(command);
      match Cli.Respond(command)
      case ClearTerminal => Step(Ok(CliReply(Cli.ClearSentinel, None)), s)
      case Output(text) => Step(Ok(CliReply(text, Some(clock.iso))), LogCommand(s, uid, command, text, clock))
  }

  /** `GET /cli/history`: the stored commands whose owner is the caller. */
  function CliHistory(s: Store, sessions: Sessions, header: Option<string>): (r: Reply<map<string, CommandEntry>>)
    ensures Authenticate(sessions, header).None? <==> r == Unauthorized()
    ensures r.Ok? ==> forall k :: k in r.body <==>
      k in s.commands && s.commands[k].userId == Authenticate(sessions, header).value
    ensures r.Ok? ==> forall k :: k in r.body ==> r.body[k] == s.commands[k]
  {
    match Authenticate(sessions, header)
    case None => Unauthorized()
    case Some(uid) => Ok(map k | k in s.commands && s.commands[k].userId == uid :: s.commands[k])
  }

  /** A command the caller runs shows up in the caller's own terminal history; `clear` never does. */
  lemma ExecutedCommandIsListed(s: Store, sessions: Sessions, header: Option<string>, command: string, clock: Clock)
    requires Authenticate(sessions, header).Some?
    ensures var t := CliExecute(s, sessions, header, command, clock).store;
      Cli.Normalize(command) != "clear" ==>
        && CommandKey(clock) in CliHistory(t, sessions, header).body
        && CliHistory(t, sessions, header).body[CommandKey(clock)].command == command
    ensures var t := CliExecute(s, sessions, header, command, clock).store;
      Cli.Normalize(command) == "clear" ==> CliHistory(t, sessions, header) == CliHistory(s, sessions, header)
  {
  }
}

=== FILE: signup_code.dfy ===
/**
 * The second sign-up step: six single-character code cells, the check made
 * before the account is created, and the resend countdown.
 */
module SignUpCode {

  datatype CodeState = CodeState(code: seq<string>, timeLeft: nat)

  const Cells := 6
  const ResendDelay := 59

  const Initial := CodeState(["", "", "", "", "", ""], ResendDelay)

  /** Six cells of at most one character each. */
  predicate WellFormed(s: CodeState) {
    |s.code| == Cells && forall i :: 0 <= i < |s.code| ==> |s.code[i]| <= 1
  }

  /** `handleCodeChange`: a value longer than one character is ignored; otherwise only cell `index` changes. */
  function CodeChange(s: CodeState, index: nat, value: string): (t: CodeState)
    requires index < |s.code|
    ensures |value| > 1 ==> t == s
    ensures |value| <= 1 ==> |t.code| == |s.code| && t.code[index] == value && t.timeLeft == s.timeLeft
    ensures forall j :: 0 <= j < |s.code| && j != index ==> t.code[j] == s.code[j]
    ensures WellFormed(s) ==> WellFormed(t)
  {
    if |value| > 1 then s else s.(code := s.code[index := value])
  }

  /** `code.join('')`. */
  function Join(cells: seq<string>): (r: string) {
    if cells == [] then "" else cells[0] + Join(cells[1..])
  }

  /** The number of non-empty cells. */
  function Filled(cells: seq<string>): (n: nat)
    ensures n <= |cells|
  {
    if cells == [] then 0 else (if cells[0] != "" then 1 else 0) + Filled(cells[1..])
  }

  /** With single-character cells, the joined code is as long as the number of filled cells. */
  lemma {:induction false} JoinLength(cells: seq<string>)
    requires forall i :: 0 <= i < |cells| ==> |cells[i]| <= 1
    ensures |Join(cells)| == Filled(cells)
  {
    if cells != [] {
      JoinLength(cells[1..]);
    }
  }

  /** Every cell is filled exactly when the count of filled cells is the count of cells. */
  lemma {:induction false} FilledAll(cells: seq<string>)
    ensures Filled(cells) == |cells| <==> forall i :: 0 <= i < |cells| ==> cells[i] != ""
  {
    if cells != [] {
      FilledAll(cells[1..]);
      assert forall i :: 1 <= i < |cells| ==> cells[i] == cells[1..][i - 1];
    }
  }

  /**
   * `handleVerify`'s check: the account is created only when the joined code
   * has six characters, which for a well-formed code means all six cells are filled.
   */
  predicate CanVerify(s: CodeState)
    ensures WellFormed(s) ==> (CanVerify(s) <==> forall i :: 0 <= i < Cells ==> s.code[i] != "")
  {
    FilledAll(s.code);
    if WellFormed(s) then
      JoinLength(s.code);
      |Join(s.code)| == Cells
    else
      |Join(s.code)| == Cells
  }

  /** The fresh screen cannot verify; filling every cell makes it verifiable. */
  lemma FillingAllCellsEnablesVerify(s: CodeState, digits: seq<char>)
    requires WellFormed(s) && |digits| == Cells
    ensures !CanVerify(Initial)
    ensures var t := s.(code := seq(Cells, i requires 0 <= i < Cells => [digits[i]]));
      WellFormed(t) && CanVerify(t)
  {
    assert Initial.code[0] == "";
    var t := s.(code := seq(Cells, i requires 0 <= i < Cells => [digits[i]]));
  }

  /** One second of the countdown. */
  function Tick(s: CodeState): (t: CodeState)
    ensures t.code == s.code
    ensures s.timeLeft > 0 ==> t.timeLeft == s.timeLeft - 1
    ensures s.timeLeft == 0 ==> t.timeLeft == 0
  {
    s.(timeLeft := if s.timeLeft > 0 then s.timeLeft - 1 else 0)
  }

  function Ticks(s: CodeState, n: nat): (r: CodeState)
    decreases n
  {
    if n == 0 then s else Ticks(Tick(s), n - 1)
  }

  /** After `n` seconds the countdown reads `timeLeft - n`, stopping at 0. */
  lemma {:induction false} TicksCountDown(s: CodeState, n: nat)
    ensures Ticks(s, n).timeLeft == if s.timeLeft >= n then s.timeLeft - n else 0
    ensures Ticks(s, n).code == s.code
    decreases n
  {
    if n > 0 {
      TicksCountDown(Tick(s), n - 1);
    }
  }

  /** `handleResend`. */
  function Resend(s: CodeState): (t: CodeState)
    ensures t.timeLeft == ResendDelay && t.code == s.code
  {
    s.(timeLeft := ResendDelay)
  }

  /** The resend button replaces the countdown once it reaches 0. */
  predicate ResendOffered(s: CodeState) {
    s.timeLeft == 0
  }

  /** After a resend the button comes back exactly when 59 seconds have passed. */
  lemma ResendReturnsAfterDelay(s: CodeState, n: nat)
    ensures ResendOffered(Ticks(Resend(s), n)) <==> n >= ResendDelay
  {
    TicksCountDown(Resend(s), n);
  }
}

=== FILE: terminal.dfy ===
/**
 * The terminal screen as a transition system. Running a command is two
 * events: sending it, and its reply (or failure) arriving later. In between,
 * the Clear Terminal and Show Help buttons stay usable, so a second command
 * can be sent while the first is in flight.
 */
module Terminal {
  import opened Optional
  import opened Text
  import Cli

  datatype Entry = Entry(command: string, output: string, timestamp: Option<string>)

  datatype State = State(history: seq<Entry>, input: string, executing: bool)

  /**
   * A request in flight: the trimmed text sent, the command as typed, and
   * the history as it was when the request was sent, which the completion
   * handler has captured.
   */
  datatype Call = Call(sent: string, command: string, snapshot: seq<Entry>)

  datatype Result = Answered(output: string, timestamp: Option<string>) | Threw(error: string, now: string)

  const Initial := State([], "", false)

  /** The first half of `executeCommand`: a blank command does nothing; otherwise the trimmed text is sent. */
  function Submit(s: State, cmd: string): (r: (State, Option<Call>))
    ensures r.1.None? <==> forall i :: 0 <= i < |cmd| ==> IsSpace(cmd[i])
    ensures r.1.None? ==> r.0 == s
    ensures r.1.Some? ==> r.0 == s.(executing := true)
    ensures r.1.Some? ==> r.1.value == Call(Trim(cmd), cmd, s.history) && r.1.value.sent != []
  {
    TrimEmptyIffBlank(cmd);
    if Trim(cmd) == [] then (s, None)
    else (s.(executing := true), Some(Call(Trim(cmd), cmd, s.history)))
  }

  /** The entry a non-clearing result adds. */
  function EntryFor(c: Call, res: Result): (r: Entry) {
    match res
    case Answered(output, timestamp) => Entry(c.command, output, timestamp)
    case Threw(error, now) => Entry(c.command, "Error: " + error, Some(now))
  }

  predicate Clears(res: Result) {
    res.Answered? && res.output == Cli.ClearSentinel
  }

  /** The second half as written: a new entry is appended to the history captured at send time. */
  function CompleteAsWritten(s: State, c: Call, res: Result): (t: State)
    ensures t.input == "" && !t.executing
    ensures Clears(res) ==> t.history == []
    ensures !Clears(res) ==> t.history == c.snapshot + [EntryFor(c, res)]
  {
    var history := if Clears(res) then [] else c.snapshot + [EntryFor(c, res)];
    State(history, "", false)
  }

  /** The second half as intended: a new entry is appended to the history as it is when the result arrives. */
  function Complete(s: State, c: Call, res: Result): (t: State)
    ensures t.input == "" && !t.executing
    ensures Clears(res) ==> t.history == []
    ensures !Clears(res) ==> |t.history| == |s.history| + 1 && t.history[..|s.history|] == s.history
    ensures !Clears(res) ==> t.history[|s.history|] == EntryFor(c, res) && t.history[|s.history|].command == c.command
  {
    var history := if Clears(res) then [] else s.history + [EntryFor(c, res)];
    State(history, "", false)
  }

  /** A failed request adds exactly one entry, and it reads "Error: …". */
  lemma FailureAddsErrorEntry(s: State, c: Call, error: string, now: string)
    ensures var t := Complete(s, c, Threw(error, now));
      |t.history| == |s.history| + 1 && t.history[|s.history|].output == "Error: " + error
  {
  }

  /** With nothing happening in between, the two completions agree. */
  lemma CompletionsAgreeWhenSequential(s: State, c: Call, res: Result)
    requires s.history == c.snapshot
    ensures CompleteAsWritten(s, c, res) == Complete(s, c, res)
  {
  }

  /** `handleKeyDown`: Enter runs the typed command unless one is already executing. */
  function KeyDown(s: State, key: string): (r: (State, Option<Call>))
    ensures key != "Enter" || s.executing ==> r == (s, None)
    ensures key == "Enter" && !s.executing ==> r == Submit(s, s.input)
  {
    if key == "Enter" && !s.executing then Submit(s, s.input) else (s, None)
  }

  /** The input field, disabled while a command is executing. */
  function Type(s: State, text: string): (t: State)
    ensures s.executing ==> t == s
    ensures !s.executing ==> t.input == text && t.history == s.history && !t.executing
  {
    if s.executing then s else s.(input := text)
  }

  /** The Clear Terminal button. */
  function ClearButton(s: State): (t: State)
    ensures t.history == [] && t.input == s.input && t.executing == s.executing
  {
    s.(history := [])
  }

  /** The Show Help button, which runs `help` even while another command is executing. */
  function ShowHelp(s: State): (r: (State, Option<Call>))
    ensures r.1 == Some(Call("help", "help", s.history))
  {
    assert "help"[0] == 'h' && "help"[3] == 'p';
    TrimUnpadded("help");
    Submit(s, "help")
  }

  /** What the terminal shows for a reply of the backend's command responder. */
  function ReplyText(r: Cli.Response): (res: string) {
    match r
    case ClearTerminal => Cli.ClearSentinel
    case Output(text) => text
  }

  lemma NormalizeOfTrimmed(cmd: string)
    ensures Cli.Normalize(Trim(cmd)) == Cli.Normalize(cmd)
  {
    TrimLowerCommute(cmd);
    TrimIdempotent(ToLower(cmd));
  }

  /** Trimming before sending changes nothing: the terminal empties exactly when the typed command normalizes to `clear`. */
  lemma TerminalClearsIffClear(s: State, cmd: string, timestamp: Option<string>)
    requires Submit(s, cmd).1.Some?
    ensures var c := Submit(s, cmd).1.value;
      var t := Complete(Submit(s, cmd).0, c, Answered(ReplyText(Cli.Respond(c.sent)), timestamp));
      (t.history == [] <==> Cli.Normalize(cmd) == "clear")
  {
    var c := Submit(s, cmd).1.value;
    NormalizeOfTrimmed(cmd);
    Cli.OutputIsNeverSentinel(c.sent);
  }

  lemma SubmitDir()
    ensures Submit(Initial, "dir") == (Initial.(executing := true), Some(Call("dir", "dir", [])))
  {
    assert "dir"[0] == 'd' && "dir"[2] == 'r';
    TrimUnpadded("dir");
  }

  /**
   * As written, a command sent while another is in flight loses the other's
   * entry: send `dir`, press Show Help, and let `dir` answer first; when
   * `help` answers, the history holds only the help entry.
   */
  lemma LostEntry(dirOut: string, helpOut: string, t1: string, t2: string)
    requires dirOut != Cli.ClearSentinel && helpOut != Cli.ClearSentinel
    ensures var (s1, c1) := Submit(Initial, "dir");
      var (s2, c2) := ShowHelp(s1);
      var s3 := CompleteAsWritten(s2, c1.value, Answered(dirOut, Some(t1)));
      var s4 := CompleteAsWritten(s3, c2.value, Answered(helpOut, Some(t2)));
      |s3.history| == 1 && s4.history == [Entry("help", helpOut, Some(t2))]
  {
    SubmitDir();
  }

  /** With the intended completion both entries stay, in the order the replies arrived. */
  lemma BothEntriesKept(dirOut: string, helpOut: string, t1: string, t2: string)
    requires dirOut != Cli.ClearSentinel && helpOut != Cli.ClearSentinel
    ensures var (s1, c1) := Submit(Initial, "dir");
      var (s2, c2) := ShowHelp(s1);
      var s3 := Complete(s2, c1.value, Answered(dirOut, Some(t1)));
      var s4 := Complete(s3, c2.value, Answered(helpOut, Some(t2)));
      s4.history == [Entry("dir", dirOut, Some(t1)), Entry("help", helpOut, Some(t2))]
  {
    SubmitDir();
    var s2 := Initial.(executing := true);
    var c1 := Call("dir", "dir", []);
    var c2 := Call("help", "help", []);
    assert ShowHelp(s2) == (s2, Some(c2));
    var s3 := Complete(s2, c1, Answered(dirOut, Some(t1)));
    assert s3.history == [Entry("dir", dirOut, Some(t1))];
  }

  /** As written, a Clear Terminal pressed while a command is in flight is undone when the command answers. */
  lemma ClearUndoneAsWritten(s: State, cmd: string, out: string, ts: Option<string>)
    requires s.history != [] && out != Cli.ClearSentinel
    requires Submit(s, cmd).1.Some?
    ensures var (s1, c) := Submit(s, cmd);
      CompleteAsWritten(ClearButton(s1), c.value, Answered(out, ts)).history == s.history + [Entry(cmd, out, ts)]
  {
  }

  /** With the intended completion the clear sticks: only the new entry is shown. */
  lemma ClearKept(s: State, cmd: string, out: string, ts: Option<string>)
    requires out != Cli.ClearSentinel
    requires Submit(s, cmd).1.Some?
    ensures var (s1, c) := Submit(s, cmd);
      Complete(ClearButton(s1), c.value, Answered(out, ts)).history == [Entry(cmd, out, ts)]
  {
  }
}

=== FILE: text.dfy ===
/** A minimal optional value, used for fields and lookups that may be absent. */
module Optional {

  datatype Option<+T> = None | Some(value: T) {

    /** The wrapped value, or `default` when absent. */
    function GetOr(default: T): (r: T) {
      match this
      case Some(v) => v
      case None => default
    }
  }
}

/**
 * The string operations the application relies on, stated over `seq<char>`:
 * `trim`, ASCII case mapping, `startsWith`, `includes`, `split(' ')[1]`
 * and the decimal rendering of a number inside a template string.
 */
module Text {
  import opened Optional

  /** ECMAScript WhiteSpace and LineTerminator code points, the set `String.prototype.trim` removes. */
  predicate IsSpace(c: char) {
    || c == ' ' || c == '\t' || c == '\n' || c == '\r'
    || c == '\U{000B}' || c == '\U{000C}' || c == '\U{00A0}' || c == '\U{FEFF}'
    || c == '\U{1680}' || ('\U{2000}' <= c <= '\U{200A}')
    || c == '\U{2028}' || c == '\U{2029}' || c == '\U{202F}' || c == '\U{205F}' || c == '\U{3000}'
  }

  /** Drops leading white space: the result is the suffix of `s` after its white-space run. */
  function TrimStart(s: string): (r: string)
    ensures |r| <= |s| && r == s[|s| - |r|..]
    ensures forall i :: 0 <= i < |s| - |r| ==> IsSpace(s[i])
    ensures r == [] || !IsSpace(r[0])
  {
    if s != [] && IsSpace(s[0]) then TrimStart(s[1..]) else s
  }

  /** Drops trailing white space: the result is the prefix of `s` before its white-space run. */
  function TrimEnd(s: string): (r: string)
    ensures |r| <= |s| && r == s[..|r|]
    ensures forall i :: |r| <= i < |s| ==> IsSpace(s[i])
    ensures r == [] || !IsSpace(r[|r| - 1])
  {
    if s != [] && IsSpace(s[|s| - 1]) then TrimEnd(s[..|s| - 1]) else s
  }

  /** `s.trim()`. */
  function Trim(s: string): (r: string) {
    TrimEnd(TrimStart(s))
  }

  /** Trimming leaves nothing exactly when the string is blank, which is the `!cmd.trim()` test. */
  lemma TrimEmptyIffBlank(s: string)
    ensures Trim(s) == [] <==> forall i :: 0 <= i < |s| ==> IsSpace(s[i])
  {
    var t := TrimStart(s);
    if t != [] {
      assert t[0] == s[|s| - |t|];
    }
  }

  /** A trimmed string neither starts nor ends with white space. */
  lemma TrimBorders(s: string)
    ensures Trim(s) == [] || (!IsSpace(Trim(s)[0]) && !IsSpace(Trim(s)[|Trim(s)| - 1]))
  {
    var t := TrimStart(s);
    var r := TrimEnd(t);
    if r != [] {
      assert r[0] == t[0];
    }
  }

  /** A string with no white space at either end is its own trim. */
  lemma TrimUnpadded(s: string)
    requires s == [] || (!IsSpace(s[0]) && !IsSpace(s[|s| - 1]))
    ensures Trim(s) == s
  {
    assert TrimStart(s) == s;
    assert TrimEnd(s) == s;
  }

  /** Every character of the trimmed string comes from the original. */
  lemma TrimChars(s: string)
    ensures forall c :: c in Trim(s) ==> c in s
  {
    var t := TrimStart(s);
    forall c | c in t ensures c in s {
      var i :| 0 <= i < |t| && t[i] == c;
      assert s[|s| - |t| + i] == c;
    }
    var r := TrimEnd(t);
    forall c | c in r ensures c in t {
      var i :| 0 <= i < |r| && r[i] == c;
      assert t[i] == c;
    }
  }

  /** Trimming twice is trimming once. */
  lemma TrimIdempotent(s: string)
    ensures Trim(Trim(s)) == Trim(s)
  {
    TrimBorders(s);
  }

  /** ASCII lower-casing of one character. */
  function LowerChar(c: char): (r: char) {
    if 'A' <= c <= 'Z' then (c as int + 32) as char else c
  }

  /** ASCII upper-casing of one character. */
  function UpperChar(c: char): (r: char) {
    if 'a' <= c <= 'z' then (c as int - 32) as char else c
  }

  /** `s.toLowerCase()`, restricted to the ASCII letters. */
  function ToLower(s: string): (r: string)
    ensures |r| == |s|
    ensures forall i :: 0 <= i < |s| ==> r[i] == LowerChar(s[i])
  {
    seq(|s|, i requires 0 <= i < |s| => LowerChar(s[i]))
  }

  /** `s.toUpperCase()`, restricted to the ASCII letters. */
  function ToUpper(s: string): (r: string)
    ensures |r| == |s|
    ensures forall i :: 0 <= i < |s| ==> r[i] == UpperChar(s[i])
  {
    seq(|s|, i requires 0 <= i < |s| => UpperChar(s[i]))
  }

  /** Lower-cased text holds no upper-case ASCII letter. */
  lemma ToLowerNoUpper(s: string)
    ensures forall c :: c in ToLower(s) ==> !('A' <= c <= 'Z')
  {
    forall c | c in ToLower(s) ensures !('A' <= c <= 'Z') {
      var i :| 0 <= i < |s| && ToLower(s)[i] == c;
    }
  }

  lemma LowerCharKeepsSpace(c: char)
    ensures IsSpace(LowerChar(c)) <==> IsSpace(c)
  {
  }

  /** Lower-casing a slice is slicing the lower-cased string. */
  lemma ToLowerSlice(s: string, i: nat, j: nat)
    requires i <= j <= |s|
    ensures ToLower(s[i..j]) == ToLower(s)[i..j]
  {
  }

  lemma {:induction false} TrimStartLower(s: string)
    ensures TrimStart(ToLower(s)) == ToLower(TrimStart(s))
    decreases |s|
  {
    var l := ToLower(s);
    if s != [] {
      assert IsSpace(l[0]) <==> IsSpace(s[0]) by {
        LowerCharKeepsSpace(s[0]);
      }
      if IsSpace(s[0]) {
        assert l[1..] == ToLower(s[1..]) by {
          ToLowerSlice(s, 1, |s|);
        }
        TrimStartLower(s[1..]);
      }
    }
  }

  lemma {:induction false} TrimEndLower(s: string)
    ensures TrimEnd(ToLower(s)) == ToLower(TrimEnd(s))
    decreases |s|
  {
    var l := ToLower(s);
    if s != [] {
      assert IsSpace(l[|l| - 1]) <==> IsSpace(s[|s| - 1]) by {
        LowerCharKeepsSpace(s[|s| - 1]);
      }
      if IsSpace(s[|s| - 1]) {
        assert l[..|l| - 1] == ToLower(s[..|s| - 1]) by {
          ToLowerSlice(s, 0, |s| - 1);
        }
        TrimEndLower(s[..|s| - 1]);
      }
    }
  }

  /** Case mapping never turns a character into white space or back, so it commutes with `trim`. */
  lemma TrimLowerCommute(s: string)
    ensures Trim(ToLower(s)) == ToLower(Trim(s))
  {
    TrimStartLower(s);
    TrimEndLower(TrimStart(s));
  }

  /** `s.startsWith(p)`. */
  predicate StartsWith(s: string, p: string) {
    p <= s
  }

  /** `t` occurs in `s` starting at position `i`. */
  predicate OccursAt(s: string, t: string, i: int) {
    0 <= i && i + |t| <= |s| && s[i..i + |t|] == t
  }

  /** Slicing the tail of `s` is slicing `s` one position further on. */
  lemma SliceOfTail(s: string, i: nat, j: nat)
    requires i <= j < |s|
    ensures s[1..][i..j] == s[i + 1..j + 1]
  {
    assert forall k :: 0 <= k < j - i ==> s[1..][i..j][k] == s[i + 1 + k];
  }

  /** `s.includes(t)`, computed by scanning start positions from the left. */
  function Contains(s: string, t: string): (r: bool)
    ensures r <==> exists i :: OccursAt(s, t, i)
  {
    if t <= s then
      assert OccursAt(s, t, 0);
      true
    else if s == [] then
      false
    else
      var r := Contains(s[1..], t);
      assert r ==> exists i :: OccursAt(s, t, i) by {
        if r {
          var i :| OccursAt(s[1..], t, i);
          SliceOfTail(s, i, i + |t|);
          assert OccursAt(s, t, i + 1);
        }
      }
      assert (exists i :: OccursAt(s, t, i)) ==> r by {
        if exists i :: OccursAt(s, t, i) {
          var i :| OccursAt(s, t, i);
          assert i != 0;
          SliceOfTail(s, i - 1, i - 1 + |t|);
          assert OccursAt(s[1..], t, i - 1);
        }
      }
      r
  }

  /** The text before the first space (all of `s` when it has none). */
  function UntilSpace(s: string): (r: string)
    ensures r <= s
    ensures ' ' !in r
    ensures |r| < |s| ==> s[|r|] == ' '
  {
    if s == [] || s[0] == ' ' then [] else [s[0]] + UntilSpace(s[1..])
  }

  /** The text after the first space, or `None` when `s` has no space. */
  function AfterSpace(s: string): (r: Option<string>)
    ensures r.None? <==> ' ' !in s
    ensures r.Some? ==> |r.value| < |s| && s[|s| - |r.value| - 1] == ' ' && r.value == s[|s| - |r.value|..]
  {
    if s == [] then None
    else if s[0] == ' ' then Some(s[1..])
    else
      var r := AfterSpace(s[1..]);
      assert ' ' in s <==> ' ' in s[1..] by {
        if ' ' in s {
          var k :| 0 <= k < |s| && s[k] == ' ';
          assert s[1..][k - 1] == ' ';
        }
      }
      r
  }

  /** `s.split(' ')[1]`: the second space-separated field, `None` (JavaScript's `undefined`) when `s` has no space. */
  function SecondField(s: string): (r: Option<string>) {
    match AfterSpace(s)
    case None => None
    case Some(rest) => Some(UntilSpace(rest))
  }

  lemma {:induction false} UntilSpaceOfWord(t: string)
    requires ' ' !in t
    ensures UntilSpace(t) == t
  {
    if t != [] {
      UntilSpaceOfWord(t[1..]);
    }
  }

  lemma {:induction false} AfterSpaceOfPair(w: string, t: string)
    requires ' ' !in w
    ensures AfterSpace(w + " " + t) == Some(t)
  {
    var s := w + " " + t;
    if w == [] {
      assert s[0] == ' ' && s[1..] == t;
    } else {
      assert s[0] == w[0] && w[0] != ' ';
      assert s[1..] == w[1..] + " " + t;
      AfterSpaceOfPair(w[1..], t);
    }
  }

  /** Splitting `w + " " + t` on spaces gives back `t` as the second field when neither word holds a space. */
  lemma SecondFieldOfPair(w: string, t: string)
    requires ' ' !in w && ' ' !in t
    ensures SecondField(w + " " + t) == Some(t)
  {
    AfterSpaceOfPair(w, t);
    UntilSpaceOfWord(t);
  }

  function DigitChar(d: nat): (c: char)
    requires d < 10
  {
    ('0' as int + d) as char
  }

  /** The decimal rendering of `n` that a template string produces. */
  function NatToString(n: nat): (r: string)
    ensures |r| >= 1
    ensures n >= 10 ==> |r| >= 2
    ensures forall i :: 0 <= i < |r| ==> '0' <= r[i] <= '9'
  {
    if n < 10 then [DigitChar(n)] else NatToString(n / 10) + [DigitChar(n % 10)]
  }

  /** Different numbers render differently. */
  lemma {:induction false} NatToStringInjective(n: nat, m: nat)
    requires NatToString(n) == NatToString(m)
    ensures n == m
    decreases n
  {
    var s := NatToString(n);
    if n < 10 && m < 10 {
      assert DigitChar(n) == s[0] == DigitChar(m);
    } else if n >= 10 && m >= 10 {
      assert DigitChar(n % 10) == s[|s| - 1] == DigitChar(m % 10);
      assert NatToString(n / 10) == s[..|s| - 1] == NatToString(m / 10);
      NatToStringInjective(n / 10, m / 10);
    }
  }
}
